=== FILE: README.md ===
# Testcontainers inspector — a Dafny model of its data-shaping core

The dashboard lists the Docker containers started by Testcontainers and lets the
user browse what they contain: PostgreSQL tables, Kafka topics and messages, and
Confluent Schema Registry subjects. This project models the pure logic between
the network calls in the four library files, and proves what that logic promises:

- **Container discovery** (`Docker`): strip the leading `/` from the first name,
  build the private-port to public-port map, classify the image, and keep only
  the known services and the containers whose name mentions `testcontainers`.
- **Kafka** (`Kafka`, `Consumer`):
  - Rewrite `localhost` in a broker address to `127.0.0.1`. As in JavaScript, only
    the first occurrence is rewritten.
  - Choose the SASL settings from the environment, with defaults.
  - Reshape topic metadata.
  - Turn each delivered message into a record. This covers reading the schema id
    from the Confluent framing (magic byte 0, then a big-endian signed 32-bit id)
    and decoding through the registry when one is configured.
  - Decide when the collection is reported complete (the promise resolves): the
    limit is reached or the 5000 ms timer fires. Appending itself never stops.
- **PostgreSQL** (`Postgres`, `JsObject`):
  - Connection settings, with defaults from the environment.
  - The data query text.
  - Grouping the column rows into tables. The order of the result follows the
    JavaScript own-property order that `Object.values` returns (`JsObject`).
- **Schema Registry** (`SchemaRegistry`):
  - The four request URLs.
  - The 5000 ms fetch timeout, which always clears its timer.
  - The gate that turns a non-2xx response into `HTTP error! status: <n>`.

Supporting modules:

- `Wrappers`: `Option` and `Result`.
- `Text`: JavaScript `indexOf`, `includes` and string-pattern `replace`.
- `Decimal`: the decimal text of an integer (`toString` below 10^21) and the
  reading back of that text.
- `Env`: the `process.env.X || default` idiom. An unset variable and an empty
  one both fall back to the default.
- `Buffer`: Node's `readInt8` and `readInt32BE`, and `WriteInt32BE`, the inverse
  of `readInt32BE`.

Calls into code that is not visible here are parameters of the model:

- the Docker daemon's container list is the `raws` argument;
- the Kafka message stream is a sequence of events;
- the registry's `decode` and `Buffer.toString` are function parameters;
- the PostgreSQL result rows are an argument;
- `fetch` is a function from URL to an exchange, which carries the time the
  exchange took to settle.

### Behaviour worth noting

- A decode is attempted whenever a registry URL is set and the message value is
  present. This includes an empty buffer and a payload without the magic byte
  (`Consumer.DecodeIgnoresMagicByte`).
- "Decoded implies a schema id" holds only when the decoder rejects unframed
  payloads. `Consumer.DecodedHasSchemaId` proves it under exactly that hypothesis.
- Once the limit is reached, the code signals completion and clears the timer,
  but it does not stop appending. Messages that kafkajs delivers before the
  consumer disconnects are still collected. So the result is not capped at the
  limit (`Consumer.LateArrivalStillAppended`).
- With a limit of 0 or below, completion is signalled after the first message
  (`Consumer.StopCount`); later messages are still appended.
- An empty registry URL is falsy in JavaScript, so it means "no registry"
  (`Consumer.EmptyUrlMeansNoRegistry`).
- The `ports` object of a container lists its keys in ascending numeric order,
  whatever order Docker reported the bindings in, because port numbers are
  array-index keys (`Docker.PortKeysEnumerateAscending`).

## Model

| member | source | states |
|---|---|---|
| Text.IndexOf | lib/docker.ts:29-31 | a position is found iff the pattern occurs, and the one found is the first occurrence |
| Text.Contains | lib/docker.ts:29-31 | JavaScript `includes` (also the name test of line 41): true iff the pattern occurs at some position |
| Text.ReplaceFirst | lib/kafka.ts:8 | with no occurrence of the pattern the string is unchanged; otherwise exactly the first occurrence is replaced and the text around it is kept |
| Docker.StripLeadingSlash | lib/docker.ts:18 | a name with a leading `/` loses exactly one character; any other name is unchanged |
| Docker.StripLeadingSlashInverse | lib/docker.ts:18 | for a name that begins with `/`, putting one `/` back in front of the stripped name recovers the original |
| Docker.StripLeadingSlashOnce | lib/docker.ts:18 | the anchored pattern removes only one slash: `//x` becomes `/x` |
| Docker.PortMap | lib/docker.ts:20-26 | every value in the port map is a public port greater than zero |
| Docker.PortMapKeys | lib/docker.ts:22-26 | a private port is a key of the map if and only if some binding for it has a truthy public port |
| Docker.PortKeysAreIndexKeys | lib/docker.ts:24 | every key of the port map is an array-index key of the JavaScript object |
| Docker.PortKeysEnumerateAscending | lib/docker.ts:20-26 | whatever order the keys were written in, the `ports` object enumerates them in ascending numeric order |
| JsObject.OwnKeysNumericOrder | lib/docker.ts:20-26 | an object whose keys are all array indices enumerates them in ascending numeric order, whatever the insertion order |
| Docker.PortMapLastWins | lib/docker.ts:22-26 | when several bindings share a private port, the map holds the public port of the last truthy one |
| Docker.Classify | lib/docker.ts:28-31 | the type is postgres iff the image mentions `postgres`; kafka iff it mentions `kafka` but not `postgres`; schema-registry iff it mentions neither but mentions `schema-registry`; unknown iff it mentions none |
| Docker.ClassifyPostgresFirst | lib/docker.ts:28-31 | an image that mentions both `postgres` and `kafka` is classified as postgres |
| Docker.ClassifyPostgresExample | lib/docker.ts:29 | `postgres:15` is classified as postgres |
| Docker.ClassifyKafkaExample | lib/docker.ts:30 | `confluentinc/cp-kafka:7.5.0` is classified as kafka |
| Docker.ClassifySchemaRegistryExample | lib/docker.ts:31 | `confluentinc/cp-schema-registry:7.5.0` is classified as schema-registry |
| Docker.Describe | lib/docker.ts:17-40 | fails iff the container has no names; otherwise id, image and status are copied and the name is the first name without its slash |
| Docker.DescribeAll | lib/docker.ts:17-40 | the mapping fails iff some container has no names; otherwise the i-th description belongs to the i-th container |
| Docker.Retain | lib/docker.ts:41 | the filter returns no more entries than it was given, each an input entry with a known type or a testcontainers name |
| Docker.RetainSelectsInOrder | lib/docker.ts:41 | the filter returns exactly the retained entries, in their original relative order, each taken from a strictly increasing index |
| Docker.RetainedIndicesExact | lib/docker.ts:41 | the reference positions of the filter are strictly increasing, in range, and contain a position iff the entry there has a known type or a testcontainers name |
| Docker.RetainedIndicesIncreasing | lib/docker.ts:41 | the reference positions are in range and strictly increasing |
| Docker.RetainedIndicesMembers | lib/docker.ts:41 | a position is a reference position iff the entry there passes the filter |
| Docker.RetainAtIndices | lib/docker.ts:41 | the filter's output has one entry per reference position, and its j-th entry is the input entry at the j-th position |
| Docker.RetainMembership | lib/docker.ts:41 | an entry is in the output iff it is in the input with a known type or a name containing `testcontainers` |
| Docker.ListTestcontainers | lib/docker.ts:14-42 | fails iff some container is nameless; otherwise every result is a known service or a testcontainers-named container, and there are no more results than containers |
| Docker.ListTestcontainersSelects | lib/docker.ts:17-41 | when every container has a name, the listing succeeds. Each result copies id, image and status from a distinct original container, in daemon order. Its name is that container's first name without the slash, its ports are that container's port map, and its type is that container's classification |
| Kafka.RewriteBroker | lib/kafka.ts:8 | the length is unchanged, an address without `localhost` is unchanged, and otherwise its first `localhost` becomes `127.0.0.1` with prefix and suffix kept |
| Text.ReplaceFirstKeepsLater | lib/kafka.ts:8 | with a replacement as long as the pattern, every occurrence after the first stays in place after a string-pattern `replace` |
| Kafka.RewriteKeepsLaterOccurrences | lib/kafka.ts:8 | a second `localhost` after the first one survives the rewrite |
| Kafka.RewriteBrokers | lib/kafka.ts:44 | the broker list keeps its length and each address is rewritten on its own |
| Kafka.RewriteLocalExample | lib/kafka.ts:44 | `localhost:9092` becomes `127.0.0.1:9092` |
| Kafka.RewriteRemoteExample | lib/kafka.ts:44 | `kafka:9092` is unchanged |
| Kafka.Settings | lib/kafka.ts:6-19 | the client id is `testcontainer-checker`; each broker is rewritten on its own and the list keeps its length; the SASL settings are those of the environment |
| Kafka.Sasl | lib/kafka.ts:14-18 | each SASL field is the environment value when it is set and non-empty, and otherwise `plain`, `kafkaclient` or `kafkaclientpwd`; no field is ever empty |
| Kafka.ReshapeTopics | lib/kafka.ts:26-29 | one entry per topic in the same order; each keeps the original metadata and gains `topic` equal to its name |
| Env.OrDefault | lib/postgres.ts:12-14 | the variable's value when set and non-empty, and otherwise the fallback; a non-empty fallback gives a non-empty result |
| Buffer.ReadInt8 | lib/kafka.ts:77 | the signed reading lies in -128..127, agrees with the byte modulo 256, and is zero iff the byte is zero |
| Buffer.ReadInt32BE | lib/kafka.ts:78 | the result is a signed 32-bit integer, negative iff the first byte has its top bit set, and congruent to the unsigned big-endian reading modulo 2^32 |
| Buffer.ReadWriteInt32 | lib/kafka.ts:78 | reading back a written 32-bit integer returns it |
| Buffer.WriteReadInt32 | lib/kafka.ts:78 | writing back what was read reproduces the four bytes |
| Consumer.SchemaIdOf | lib/kafka.ts:75-79 | a schema id is present iff the value is present, has at least 5 bytes and starts with byte 0; it is a signed 32-bit integer, negative iff byte 1 is at least 0x80 |
| Consumer.SchemaIdOfFrame | lib/kafka.ts:77-78 | a payload framed with magic byte 0 and a 32-bit id yields that id |
| Consumer.FrameOfSchemaId | lib/kafka.ts:77-78 | a value that yields an id is exactly that id's frame followed by the rest of the payload |
| Consumer.HasRegistry | lib/kafka.ts:41 | a registry is configured iff the URL is present and non-empty; a missing or empty URL configures none |
| Consumer.BuildRecord | lib/kafka.ts:73-98 | key, offset and timestamp are copied; the schema id is read from the framing; the record is decoded iff a registry is set, a value is present and the decoder succeeds; a failed decode falls back to the text; no value gives no value |
| Consumer.NoRegistryIgnoresDecoder | lib/kafka.ts:81-89 | without a registry the record is the same whichever decoder is supplied, and it is never marked decoded |
| Consumer.DecodeIgnoresMagicByte | lib/kafka.ts:77-84 | with a registry, a present value without the magic byte is still handed to the decoder and can be decoded, with no schema id |
| Consumer.DecodedHasSchemaId | lib/kafka.ts:77-84 | when the decoder rejects unframed payloads, every decoded record carries a schema id |
| Consumer.DecodeFailureKeepsSchemaId | lib/kafka.ts:82-88 | a framed message whose decode fails is kept as text, not marked decoded, and still carries its schema id |
| Consumer.EffectiveLimit | lib/kafka.ts:40 | an omitted limit is 20; a given limit is used as it is |
| Consumer.Deliver | lib/kafka.ts:91-103 | an arrival appends its record; an arrival that brings the count to the limit resolves and clears the timer, and one below the limit leaves both flags as they were; the timer firing appends nothing and resolves, and after `clearTimeout` it changes nothing; once set, neither flag is reset |
| Consumer.Run | lib/kafka.ts:64-103 | at every point a cleared timer implies completion was signalled, and no more records than events are held |
| Consumer.StopCount | lib/kafka.ts:40 | the number of messages that triggers the completion signal is at least 1 and at least the limit, and is either 1 or the limit |
| Consumer.RunKeepsEveryArrival | lib/kafka.ts:91-98 | every delivered message is appended, in delivery order, whether or not completion was already signalled |
| Consumer.RunClearsTimer | lib/kafka.ts:100-101 | the timer is cleared iff the number of delivered messages reached the stop count |
| Consumer.RunResolves | lib/kafka.ts:64-67 | completion is signalled (the promise resolves) iff the stop count was reached or the timer fired |
| Consumer.StopFiresAtFirstReach | lib/kafka.ts:100-103 | one more message is the one that clears the timer iff it brings the count to exactly the stop count |
| Consumer.LateArrivalStillAppended | lib/kafka.ts:91-103 | a message delivered after completion is still appended, so the result can exceed the limit |
| Consumer.EmptyUrlMeansNoRegistry | lib/kafka.ts:41 | an empty registry URL gives exactly the result of no URL, with no record decoded |
| Consumer.NonEmptyUrlDecodes | lib/kafka.ts:41 | with a non-empty registry URL, every message whose value is present and accepted by the decoder is kept decoded, with the decoded value |
| Consumer.ConsumeMessages | lib/kafka.ts:40-108 | one record per delivered message, in order, each built from its message. The timer is cleared iff the delivered count reached the stop count of the limit, which defaults to 20. Completion is signalled iff that count was reached or the timer fired; appending never stops |
| Postgres.Connection | lib/postgres.ts:9-16 | host and port are passed through with a 5000 ms connection timeout; user, password and database come from the environment and default to `test` |
| Postgres.DataQuery | lib/postgres.ts:56 | the query is `SELECT * FROM `, then the table name verbatim, then ` LIMIT 100` |
| Postgres.DataQueryInjective | lib/postgres.ts:56 | different table names give different queries |
| Postgres.TableNames | lib/postgres.ts:29-30 | the table names are distinct and are exactly the names that occur in the rows |
| Postgres.TableNamesPrefix | lib/postgres.ts:29-30 | the table names of a prefix of the rows are a prefix of the table names of all rows |
| Postgres.AddRow | lib/postgres.ts:29-32 | one `forEach` iteration, corrected: on first sight of a name a table with just this row's column is created and its key appended; otherwise the column is appended to that table's columns; every other table is unchanged |
| Postgres.Group | lib/postgres.ts:27-33 | the corrected `forEach` from `{}`: every row's table is stored, and each table is stored under its own name |
| Postgres.AddRowAsWritten | lib/postgres.ts:29-32 | the iteration as written throws a TypeError naming the table exactly when the name is a not-yet-created `Object.prototype` member, and otherwise does what the corrected iteration does |
| Postgres.GroupAsWritten | lib/postgres.ts:27-33 | the `forEach` as written: when it throws, the error names a table of some row, and that name is an `Object.prototype` member |
| Postgres.ObjectValues | lib/postgres.ts:35 | `Object.values(tables)`: one table per key, read in the object's enumeration order of its keys |
| Postgres.GroupMatchesReference | lib/postgres.ts:27-33 | the forEach grouping yields, for each table name in first-appearance order, the columns of that table's rows in row order |
| Postgres.SumColumnsCountsRows | lib/postgres.ts:28-33 | the grouped tables hold as many columns in total as there were rows |
| JsObject.OwnKeys | lib/postgres.ts:35 | the keys are a permutation of the insertion-ordered keys |
| JsObject.OwnKeysOrder | lib/postgres.ts:35 | array-index keys come first in ascending numeric order, followed by all other keys |
| JsObject.OwnKeysInsertionOrder | lib/postgres.ts:35 | with no array-index keys, the order is insertion order |
| JsObject.OwnKeysDistinct | lib/postgres.ts:35 | distinct keys stay distinct |
| Postgres.GetTablesAsWritten | lib/postgres.ts:27-35 | the grouping as written: it throws exactly when some table is named after an `Object.prototype` member, and otherwise returns the corrected grouping |
| Postgres.GetTables | lib/postgres.ts:27-35 | the corrected grouping, which agrees with the code whenever no table is named after an `Object.prototype` member: table names are distinct and come in the `Object.values` order of the names' first appearances; each table holds the columns of its own rows, in row order |
| Postgres.GetTablesKeepsEveryRow | lib/postgres.ts:27-35 | a table is listed iff some row names it, and the tables hold one column per row, so no row is lost or duplicated |
| Postgres.GetTablesFirstAppearanceOrder | lib/postgres.ts:35 | when no table name is an array index, tables come in the order they first appear in the rows |
| Postgres.GroupAsWrittenDiverges | lib/postgres.ts:29-32 | the grouping as written agrees with the intended grouping iff no table is named after an inherited `Object.prototype` member, and throws otherwise |
| Postgres.SingleTable | lib/postgres.ts:27-35 | one row whose table name is not index-like yields exactly one table, holding that row's column |
| Postgres.ConstructorTableListed | lib/postgres.ts:27-35 | the intended grouping lists a table named `constructor` with its one column |
| Postgres.ConstructorTableThrows | lib/postgres.ts:29-32 | one column of a table named `constructor` makes the code as written throw a TypeError, while the intended grouping returns that table |
| SchemaRegistry.SubjectsUrl | lib/schema-registry.ts:18 | the URL is `http://`, host, `:`, decimal port, then `/subjects` |
| SchemaRegistry.VersionsUrl | lib/schema-registry.ts:29 | the subjects URL, then `/`, the subject verbatim, and `/versions` |
| Decimal.IntTextIsToString | lib/schema-registry.ts:38-50 | integer text is unique: the only canonical integer text (optional minus, no leading zero, no `-0`) that reads back as `i` is the text `toString` gives `i` |
| SchemaRegistry.VersionText | lib/schema-registry.ts:38-40 | an omitted version is `latest`; a text version is used verbatim; a numeric version is written as canonical integer text (no leading zero, no `-0`), signed iff negative, that reads back as the number; by `Decimal.IntTextIsToString` that is exactly its `toString` text |
| SchemaRegistry.SchemaUrl | lib/schema-registry.ts:38-40 | the versions URL, then `/` and the version; a missing version gives `/latest` |
| SchemaRegistry.SchemaByIdUrl | lib/schema-registry.ts:50 | the origin, then `/schemas/ids/`, then the id as canonical integer text that reads back as the id, which by `Decimal.IntTextIsToString` is exactly its `toString` text |
| SchemaRegistry.SubjectsUrlExample | lib/schema-registry.ts:18 | `localhost` and 8081 give `http://localhost:8081/subjects` |
| SchemaRegistry.SchemaByIdUrlExample | lib/schema-registry.ts:50 | id 7 on `localhost:8081` gives `http://localhost:8081/schemas/ids/7` |
| SchemaRegistry.TimerAt | lib/schema-registry.ts:5 | the abort timer, uncleared, has fired exactly from 5000 ms on, and is pending before |
| SchemaRegistry.ClearTimeout | lib/schema-registry.ts:8-11 | `clearTimeout` never leaves a timer pending, and a timer is fired after it exactly when it had fired before |
| SchemaRegistry.FetchWithTimeout | lib/schema-registry.ts:3-14 | the timer is never left pending: it has fired exactly when the fetch was aborted, and is cleared exactly when the exchange settled before 5000 ms; the fetch succeeds iff it settles with a response before 5000 ms; one that settles later is aborted |
| SchemaRegistry.Gate | lib/schema-registry.ts:19-20 | a 2xx response yields its JSON body, or an error when the body is not JSON; any other status yields the HTTP error with that status, whatever the body |
| SchemaRegistry.GateIgnoresBodyOnError | lib/schema-registry.ts:19 | a non-2xx response gives the same error whatever its body |
| SchemaRegistry.Message | lib/schema-registry.ts:19 | a message starts with `HTTP error! status: ` exactly when it reports a status error, and the rest is canonical integer text that reads back as the status |
| SchemaRegistry.Request | lib/schema-registry.ts:17-24 | the body every getter shares: success iff the exchange is delivered in time with a 2xx status and a JSON body, then the parsed body; a timely non-2xx answer is the HTTP error with its status; a late one is the abort error |
| SchemaRegistry.MessageCarriesStatus | lib/schema-registry.ts:19 | the HTTP error message is `HTTP error! status: ` followed by the status, which parses back from it |
| SchemaRegistry.GetSubjects | lib/schema-registry.ts:16-25 | succeeds iff the subjects URL answers within 5000 ms with a 2xx status and a JSON body, and then returns that parsed body. A timely non-2xx answer is an HTTP error carrying its status |
| SchemaRegistry.GetVersions | lib/schema-registry.ts:27-36 | the same gating and the parsed body on success, for the versions URL of the subject |
| SchemaRegistry.GetSchema | lib/schema-registry.ts:38-47 | the same gating and the parsed body on success, for the schema URL of the subject and version, `latest` by default |
| SchemaRegistry.GetSchemaById | lib/schema-registry.ts:48-57 | the same gating and the parsed body on success, for the schema-by-id URL |

## Left out

- Docker daemon access (dockerode, the Unix socket): the container list is an argument.
- The kafkajs client: connect, subscribe, run and disconnect are not modelled.
  - The Snappy codec registration is not modelled.
  - The constant connection settings other than the client id are not modelled: the 5000 ms connection timeout and the retry policy of 100 ms × 3.
  - The `Date.now()` consumer group id is left out because it is a clock reading.
- The race between the timer and message delivery is left out because it is concurrency.
  - The model is a sequential fold over an event sequence.
  - The consumer's `reject` path on a failed run is not modelled.
- The registry's `decode` and `Buffer.toString` are function parameters, because Avro, Protobuf and UTF-8 decoding are not part of this model.
- The pg client is not modelled: connecting, running SQL, and the `ORDER BY table_name, ordinal_position` of the column query.
  - `Postgres.GetTables` takes rows in whatever order they come.
- `fetch`, `AbortController` and `response.json()` are a parameter returning a settled exchange, not modelled code.
  - A fetch that settles at exactly 5000 ms is treated as aborted. This is a modelling choice: the source leaves that tie to the event loop.
- Console logging and the re-throw in each catch block are left out. They do not change results.
- The route handlers and the page are not part of this model, including which container port each route picks.
- JavaScript numbers that are not integers are left out, including NaN.
  - A fractional or NaN `limit` is not modelled: the limit is an optional integer.
  - Ports and ids are naturals and integers.
- SchemaRegistry.SchemaByIdUrl: the id is written in plain decimal for every integer. JavaScript writes an id of magnitude 10^21 or more in exponent form (`1e+21`), and it cannot hold integers beyond 2^53 exactly. For such ids the model's URL and its read-back property differ from the code. Ports are below 2^16, so `Origin` is not affected.
- `$` replacement patterns in `String.replace` are left out: the replacement `127.0.0.1` contains none.
- Error texts other than `HTTP error! status: <n>` are placeholders: the abort, network failure and JSON parse errors come from the platform.

## Findings

| source | as written | input that shows it | evidently intended | confidence | as-written member | corrected member |
|---|---|---|---|---|---|---|
| lib/postgres.ts:29-32 | `tables[row.table_name]` also finds members inherited from `Object.prototype`, so no entry is created and `.columns.push` runs on `undefined` and throws a TypeError | one column row of a table named `constructor` (likewise `toString`, `valueOf`, `__proto__`, …) | every table in the public schema is grouped, whatever its name | not executed; high | Postgres.GetTablesAsWritten (exhibited by Postgres.ConstructorTableThrows and Postgres.GroupAsWrittenDiverges) | Postgres.GetTables |

=== FILE: buffer.dfy ===
/**
 Byte buffers and the two Node.js `Buffer` readers the message consumer uses:
 `readInt8` and `readInt32BE`, both reading two's-complement signed values.
 */
module Buffer {

  type byte = b: int | 0 <= b < 256

  type Bytes = seq<byte>

  const Two31: int := 0x8000_0000
  const Two32: int := 0x1_0000_0000

  predicate IsInt32(x: int) {
    -Two31 <= x < Two31
  }

  /** `buf.readInt8(off)`: one byte as a signed 8-bit integer. */
  function ReadInt8(buf: Bytes, off: nat): (r: int)
    requires off < |buf|
    ensures -128 <= r < 128
    ensures r == 0 <==> buf[off] == 0
    ensures r < 0 <==> buf[off] >= 0x80
    ensures r % 256 == buf[off]
  {
    var b: int := buf[off];
    if b < 0x80 then b else b - 256
  }

  /** The four bytes at `off` as an unsigned big-endian integer. */
  function ReadUInt32BE(buf: Bytes, off: nat): (r: nat)
    requires off + 4 <= |buf|
    ensures r < Two32
  {
    var b0: int, b1: int, b2: int, b3: int := buf[off], buf[off + 1], buf[off + 2], buf[off + 3];
    ((b0 * 256 + b1) * 256 + b2) * 256 + b3
  }

  /** `buf.readInt32BE(off)`: the four bytes at `off` as a signed big-endian 32-bit integer. */
  function ReadInt32BE(buf: Bytes, off: nat): (r: int)
    requires off + 4 <= |buf|
    ensures IsInt32(r)
    ensures r < 0 <==> buf[off] >= 0x80
    ensures r % Two32 == ReadUInt32BE(buf, off)
  {
    var u := ReadUInt32BE(buf, off);
    if u < Two31 then u else u - Two32
  }

  /** `buf.writeInt32BE(x)` into a fresh four-byte buffer: the encoder that `ReadInt32BE` inverts. */
  function WriteInt32BE(x: int): (r: Bytes)
    requires IsInt32(x)
    ensures |r| == 4
  {
    var u := if x < 0 then x + Two32 else x;
    [u / 0x100_0000, (u / 0x1_0000) % 256, (u / 256) % 256, u % 256]
  }

  lemma DivMod256(a: nat, b: nat)
    requires b < 256
    ensures (a * 256 + b) / 256 == a && (a * 256 + b) % 256 == b
  {
  }

  /** Reading back a written 32-bit integer gives the integer. */
  lemma ReadWriteInt32(x: int)
    requires IsInt32(x)
    ensures ReadInt32BE(WriteInt32BE(x), 0) == x
  {
    var u := if x < 0 then x + Two32 else x;
    var w := WriteInt32BE(x);
    assert 0 <= u < Two32;
    var b3 := u % 256;
    var q1 := u / 256;
    var b2 := q1 % 256;
    var q2 := q1 / 256;
    var b1 := q2 % 256;
    var b0 := q2 / 256;
    assert u == q1 * 256 + b3;
    assert q1 == q2 * 256 + b2;
    assert q2 == b0 * 256 + b1;
    assert u / 0x1_0000 == q2;
    assert u / 0x100_0000 == b0;
    assert w == [b0, b1, b2, b3];
    assert ReadUInt32BE(w, 0) == u;
  }

  /** Writing back a read 32-bit integer reproduces the four bytes it was read from. */
  lemma WriteReadInt32(buf: Bytes, off: nat)
    requires off + 4 <= |buf|
    ensures WriteInt32BE(ReadInt32BE(buf, off)) == buf[off..off + 4]
  {
    var u := ReadUInt32BE(buf, off);
    var b0: int, b1: int, b2: int := buf[off], buf[off + 1], buf[off + 2];
    var q2 := b0 * 256 + b1;
    var q1 := q2 * 256 + b2;
    DivMod256(q1, buf[off + 3]);
    DivMod256(q2, buf[off + 2]);
    DivMod256(buf[off], buf[off + 1]);
    assert u / 256 == q1;
    assert u / 0x1_0000 == q2;
    assert u / 0x100_0000 == buf[off];
  }
}

=== FILE: consumer.dfy ===
/**
 The message consumer: the per-message record builder run by `eachMessage`
 and the accumulator it appends to, with its stop test. Delivery is a fold
 over the sequence of events the consumer observes (message arrivals and the
 5000 ms timer elapsing). The schema-registry decoder and `Buffer.toString`
 are parameters: `decode` answers whether the registry decoded a payload,
 `text` is the payload's text.
 */
module Consumer {
  import opened Wrappers
  import opened Buffer

  /** One message as the client library delivers it; key and value may be null. */
  datatype KafkaMessage = KafkaMessage(key: Option<Bytes>, value: Option<Bytes>, offset: string, timestamp: string)

  /** What `registry.decode(buffer)` did: resolved with a decoded value, or threw. */
  datatype DecodeOutcome<D> = DecodeOk(decoded: D) | DecodeFailed

  /** The record's `value`: undefined (null payload), the payload's raw text, or the decoded value. */
  datatype MessageValue<D> = Absent | RawText(text: string) | DecodedValue(decoded: D)

  /** One element of the returned `messages` list. */
  datatype ConsumedRecord<D> = ConsumedRecord(
    key: Option<string>,
    value: MessageValue<D>,
    isDecoded: bool,
    schemaId: Option<int>,
    offset: string,
    timestamp: string)

  /** `schemaRegistryUrl ? new SchemaRegistry(...) : null`: a missing or empty URL means no registry. */
  function HasRegistry(url: Option<string>): (b: bool)
    ensures b <==> url.Some? && |url.value| > 0
  {
    url.Some? && url.value != ""
  }

  /**
   The schema id of a payload in the registry's wire framing: a zero first
   byte, then bytes 1..4 as a signed big-endian 32-bit id.
   */
  function SchemaIdOf(value: Option<Bytes>): (r: Option<int>)
    ensures r.Some? <==> value.Some? && |value.value| >= 5 && value.value[0] == 0
    ensures r.Some? ==> IsInt32(r.value)
    ensures r.Some? ==> (r.value < 0 <==> value.value[1] >= 0x80)
  {
    if value.Some? && |value.value| >= 5 && ReadInt8(value.value, 0) == 0
    then Some(ReadInt32BE(value.value, 1))
    else None
  }

  /** The wire framing of a payload under schema id `id`: the encoder `SchemaIdOf` inverts. */
  function Frame(id: int, body: Bytes): (r: Bytes)
    requires IsInt32(id)
    ensures |r| == 5 + |body|
  {
    [0] + WriteInt32BE(id) + body
  }

  /** The id read from a framed payload is the id it was framed with. */
  lemma SchemaIdOfFrame(id: int, body: Bytes)
    requires IsInt32(id)
    ensures SchemaIdOf(Some(Frame(id, body))) == Some(id)
  {
    var f := Frame(id, body);
    assert f[1..5] == WriteInt32BE(id);
    ReadWriteInt32(id);
    assert ReadUInt32BE(f, 1) == ReadUInt32BE(WriteInt32BE(id), 0);
  }

  /** Every payload with an id is the framing of its remainder under that id. */
  lemma FrameOfSchemaId(v: Bytes)
    requires SchemaIdOf(Some(v)).Some?
    ensures Frame(SchemaIdOf(Some(v)).value, v[5..]) == v
  {
    WriteReadInt32(v, 1);
    assert v == [v[0]] + v[1..5] + v[5..];
  }

  /** The `eachMessage` body up to the `push`: the record built for one message. */
  function BuildRecord<D>(m: KafkaMessage, registry: bool, decode: Bytes -> DecodeOutcome<D>, text: Bytes -> string)
    : (r: ConsumedRecord<D>)
    ensures r.key == (if m.key.Some? then Some(text(m.key.value)) else None)
    ensures r.offset == m.offset && r.timestamp == m.timestamp
    ensures r.schemaId == SchemaIdOf(m.value)
    ensures r.isDecoded <==> registry && m.value.Some? && decode(m.value.value).DecodeOk?
    ensures r.isDecoded ==> r.value == DecodedValue(decode(m.value.value).decoded)
    ensures !r.isDecoded && m.value.Some? ==> r.value == RawText(text(m.value.value))
    ensures m.value.None? ==> r.value == Absent
  {
    var key := if m.key.Some? then Some(text(m.key.value)) else None;
    var schemaId := SchemaIdOf(m.value);
    if registry && m.value.Some? then
      match decode(m.value.value)
      case DecodeOk(d) => ConsumedRecord(key, DecodedValue(d), true, schemaId, m.offset, m.timestamp)
      case DecodeFailed => ConsumedRecord(key, RawText(text(m.value.value)), false, schemaId, m.offset, m.timestamp)
    else
      var value := if m.value.Some? then RawText(text(m.value.value)) else Absent;
      ConsumedRecord(key, value, false, schemaId, m.offset, m.timestamp)
  }

  /** Without a registry no decode happens: the decoder cannot influence the record. */
  lemma NoRegistryIgnoresDecoder<D>(m: KafkaMessage, d1: Bytes -> DecodeOutcome<D>, d2: Bytes -> DecodeOutcome<D>,
                                    text: Bytes -> string)
    ensures BuildRecord(m, false, d1, text) == BuildRecord(m, false, d2, text)
    ensures !BuildRecord(m, false, d1, text).isDecoded
  {
  }

  /**
   A registry decode is attempted whatever the first byte is: a decoder that
   accepts an unframed payload yields a decoded record with no schema id.
   */
  lemma DecodeIgnoresMagicByte<D>(m: KafkaMessage, decode: Bytes -> DecodeOutcome<D>, text: Bytes -> string)
    requires m.value.Some? && |m.value.value| > 0 && m.value.value[0] != 0
    requires decode(m.value.value).DecodeOk?
    ensures var r := BuildRecord(m, true, decode, text);
            r.isDecoded && r.schemaId.None?
  {
  }

  /** A decoded record carries a schema id whenever the decoder rejects payloads without the framing. */
  lemma DecodedHasSchemaId<D>(m: KafkaMessage, registry: bool, decode: Bytes -> DecodeOutcome<D>, text: Bytes -> string)
    requires forall v: Bytes :: SchemaIdOf(Some(v)).None? ==> decode(v).DecodeFailed?
    ensures BuildRecord(m, registry, decode, text).isDecoded ==> BuildRecord(m, registry, decode, text).schemaId.Some?
  {
  }

  /** A framed message whose registry lookup throws: raw text, not decoded, and the id still set. */
  lemma DecodeFailureKeepsSchemaId<D>(id: int, body: Bytes, key: Option<Bytes>, offset: string, timestamp: string,
                                      decode: Bytes -> DecodeOutcome<D>, text: Bytes -> string)
    requires IsInt32(id)
    requires decode(Frame(id, body)).DecodeFailed?
    ensures var r := BuildRecord(KafkaMessage(key, Some(Frame(id, body)), offset, timestamp), true, decode, text);
            !r.isDecoded && r.value == RawText(text(Frame(id, body))) && r.schemaId == Some(id)
  {
    SchemaIdOfFrame(id, body);
  }

  /** What the consumer observes while the consumption promise is pending. */
  datatype Event = Arrival(message: KafkaMessage) | TimerElapsed

  /**
   The consumer's state: the accumulated `messages`, whether the promise has
   been resolved, and whether `clearTimeout` has been called.
   */
  datatype Consumption<D> = Consumption(messages: seq<ConsumedRecord<D>>, resolved: bool, timerCleared: bool)

  const DefaultLimit: int := 20

  /** The `limit = 20` default parameter. */
  function EffectiveLimit(limit: Option<int>): (r: int)
    ensures limit.None? ==> r == DefaultLimit
    ensures limit.Some? ==> r == limit.value
  {
    if limit.Some? then limit.value else DefaultLimit
  }

  /** One event. An arrival is always appended; the stop test runs after the append. */
  function Deliver<D>(c: Consumption<D>, e: Event, limit: int, registry: bool,
                      decode: Bytes -> DecodeOutcome<D>, text: Bytes -> string): (r: Consumption<D>)
    ensures e.Arrival? ==> r.messages == c.messages + [BuildRecord(e.message, registry, decode, text)]
    ensures e.Arrival? && |r.messages| >= limit ==> r.resolved && r.timerCleared
    ensures e.Arrival? && |r.messages| < limit ==> r.resolved == c.resolved && r.timerCleared == c.timerCleared
    ensures e.TimerElapsed? ==> r.messages == c.messages && r.timerCleared == c.timerCleared
    ensures e.TimerElapsed? && !c.timerCleared ==> r.resolved
    ensures e.TimerElapsed? && c.timerCleared ==> r == c
    ensures (c.resolved ==> r.resolved) && (c.timerCleared ==> r.timerCleared)
    ensures (c.timerCleared ==> c.resolved) ==> (r.timerCleared ==> r.resolved)
  {
    match e
    case Arrival(m) =>
      var messages := c.messages + [BuildRecord(m, registry, decode, text)];
      if |messages| >= limit then Consumption(messages, true, true)
      else c.(messages := messages)
    case TimerElapsed =>
      if c.timerCleared then c else c.(resolved := true)
  }

  /** The consumer's state after observing `events` in order, starting with nothing accumulated. */
  function Run<D>(events: seq<Event>, limit: int, registry: bool,
                  decode: Bytes -> DecodeOutcome<D>, text: Bytes -> string): (r: Consumption<D>)
    ensures r.timerCleared ==> r.resolved
    ensures |r.messages| <= |events|
    decreases |events|
  {
    if |events| == 0 then Consumption([], false, false)
    else Deliver(Run(events[..|events| - 1], limit, registry, decode, text), events[|events| - 1],
                 limit, registry, decode, text)
  }

  /** The messages among the events, in arrival order. */
  function Arrivals(events: seq<Event>): (ms: seq<KafkaMessage>)
    ensures |ms| <= |events|
    decreases |events|
  {
    if |events| == 0 then []
    else
      var init := Arrivals(events[..|events| - 1]);
      match events[|events| - 1]
      case Arrival(m) => init + [m]
      case TimerElapsed => init
  }

  /** The count at which the stop test first succeeds: `limit`, but never before the first append. */
  function StopCount(limit: int): (n: nat)
    ensures n >= 1 && n >= limit
    ensures n == 1 || n == limit
  {
    if limit <= 1 then 1 else limit
  }

  /** Every arrival is built and appended in arrival order, also after the stop signal. */
  lemma {:induction false} RunKeepsEveryArrival<D>(events: seq<Event>, limit: int, registry: bool,
                                                   decode: Bytes -> DecodeOutcome<D>, text: Bytes -> string)
    ensures var c, ms := Run(events, limit, registry, decode, text), Arrivals(events);
            && |c.messages| == |ms|
            && forall i :: 0 <= i < |ms| ==> c.messages[i] == BuildRecord(ms[i], registry, decode, text)
    decreases |events|
  {
    if |events| > 0 {
      RunKeepsEveryArrival(events[..|events| - 1], limit, registry, decode, text);
    }
  }

  /** The timer is cleared exactly when the arrival count has reached the stop count. */
  lemma {:induction false} RunClearsTimer<D>(events: seq<Event>, limit: int, registry: bool,
                                             decode: Bytes -> DecodeOutcome<D>, text: Bytes -> string)
    ensures Run(events, limit, registry, decode, text).timerCleared <==> |Arrivals(events)| >= StopCount(limit)
    decreases |events|
  {
    if |events| > 0 {
      RunClearsTimer(events[..|events| - 1], limit, registry, decode, text);
      RunKeepsEveryArrival(events[..|events| - 1], limit, registry, decode, text);
    }
  }

  /** The promise is resolved exactly when the stop count was reached or the timer elapsed. */
  lemma {:induction false} RunResolves<D>(events: seq<Event>, limit: int, registry: bool,
                                          decode: Bytes -> DecodeOutcome<D>, text: Bytes -> string)
    ensures Run(events, limit, registry, decode, text).resolved <==>
              |Arrivals(events)| >= StopCount(limit) || TimerElapsed in events
    decreases |events|
  {
    if |events| > 0 {
      var init := events[..|events| - 1];
      RunResolves(init, limit, registry, decode, text);
      RunClearsTimer(init, limit, registry, decode, text);
      RunKeepsEveryArrival(init, limit, registry, decode, text);
      assert events == init + [events[|events| - 1]];
      assert TimerElapsed in events <==> TimerElapsed in init || events[|events| - 1] == TimerElapsed;
    }
  }

  /**
   The stop signal (clear the timer, resolve) fires at the append after
   which the count first reaches the stop count, and at no other append.
   */
  lemma StopFiresAtFirstReach<D>(events: seq<Event>, m: KafkaMessage, limit: int, registry: bool,
                                 decode: Bytes -> DecodeOutcome<D>, text: Bytes -> string)
    ensures var before := Run(events, limit, registry, decode, text);
            var after := Run(events + [Arrival(m)], limit, registry, decode, text);
            (!before.timerCleared && after.timerCleared) <==> |after.messages| == StopCount(limit)
  {
    var events' := events + [Arrival(m)];
    assert events'[..|events'| - 1] == events;
    RunClearsTimer(events, limit, registry, decode, text);
    RunClearsTimer(events', limit, registry, decode, text);
    RunKeepsEveryArrival(events', limit, registry, decode, text);
  }

  /**
   Appends are not blocked once the promise is resolved: an arrival after
   the stop signal is still built and appended.
   */
  lemma LateArrivalStillAppended<D>(events: seq<Event>, m: KafkaMessage, limit: int, registry: bool,
                                    decode: Bytes -> DecodeOutcome<D>, text: Bytes -> string)
    requires Run(events, limit, registry, decode, text).resolved
    ensures var before := Run(events, limit, registry, decode, text);
            var after := Run(events + [Arrival(m)], limit, registry, decode, text);
            after.resolved && after.messages == before.messages + [BuildRecord(m, registry, decode, text)]
  {
    var events' := events + [Arrival(m)];
    assert events'[..|events'| - 1] == events;
  }

  /** An empty registry URL is falsy: the consumer behaves exactly as with no URL. */
  lemma EmptyUrlMeansNoRegistry<D>(events: seq<Event>, limit: Option<int>,
                                   decode: Bytes -> DecodeOutcome<D>, text: Bytes -> string)
    ensures ConsumeMessages(events, limit, Some(""), decode, text) == ConsumeMessages(events, limit, None, decode, text)
    ensures forall i :: 0 <= i < |Arrivals(events)| ==>
              !ConsumeMessages(events, limit, Some(""), decode, text).messages[i].isDecoded
  {
  }

  /** With a non-empty registry URL every present value is decoded, and kept decoded when the decoder accepts it. */
  lemma NonEmptyUrlDecodes<D>(events: seq<Event>, limit: Option<int>, url: string,
                              decode: Bytes -> DecodeOutcome<D>, text: Bytes -> string)
    requires url != ""
    ensures var ms := Arrivals(events);
            var r := ConsumeMessages(events, limit, Some(url), decode, text);
            forall i :: 0 <= i < |ms| && ms[i].value.Some? && decode(ms[i].value.value).DecodeOk? ==>
              r.messages[i].isDecoded && r.messages[i].value == DecodedValue(decode(ms[i].value.value).decoded)
  {
  }

  /**
   `consumeMessages` from the point the subscription runs: the fold over the
   observed events with the caller's limit (default 20) and the registry
   the URL configures.
   */
  function ConsumeMessages<D>(events: seq<Event>, limit: Option<int>, schemaRegistryUrl: Option<string>,
                              decode: Bytes -> DecodeOutcome<D>, text: Bytes -> string): (r: Consumption<D>)
    ensures |r.messages| == |Arrivals(events)|
    ensures forall i :: 0 <= i < |r.messages| ==>
              r.messages[i] == BuildRecord(Arrivals(events)[i], HasRegistry(schemaRegistryUrl), decode, text)
    ensures r.timerCleared <==> |Arrivals(events)| >= StopCount(EffectiveLimit(limit))
    ensures r.resolved <==> |Arrivals(events)| >= StopCount(EffectiveLimit(limit)) || TimerElapsed in events
  {
    var lim, registry := EffectiveLimit(limit), HasRegistry(schemaRegistryUrl);
    RunKeepsEveryArrival(events, lim, registry, decode, text);
    RunClearsTimer(events, lim, registry, decode, text);
    RunResolves(events, lim, registry, decode, text);
    Run(events, lim, registry, decode, text)
  }
}

=== FILE: decimal.dfy ===
/**
 Decimal text of integers and the inverse reading of that text. For integers
 below 10^21 in magnitude this is the text JavaScript's
 `Number.prototype.toString()` produces; from 10^21 on JavaScript switches to
 exponent form (`1e+21`), which is not modelled.
 */
module Decimal {

  predicate IsDigit(c: char) {
    '0' <= c <= '9'
  }

  predicate AllDigits(s: string) {
    forall i :: 0 <= i < |s| ==> IsDigit(s[i])
  }

  /** The text JavaScript produces for a non-negative integer: digits only, no leading zero. */
  predicate IsCanonical(s: string) {
    |s| >= 1 && AllDigits(s) && (s[0] == '0' ==> |s| == 1)
  }

  /** The text JavaScript produces for an integer: canonical digits, after a minus sign when negative (never `-0`). */
  predicate IsIntText(s: string) {
    |s| >= 1 && (s[0] == '-' ==> IsCanonical(s[1..]) && s[1..] != "0") && (s[0] != '-' ==> IsCanonical(s))
  }

  function DigitChar(d: nat): (c: char)
    requires d < 10
    ensures IsDigit(c) && DigitValue(c) == d
  {
    ('0' as int + d) as char
  }

  function DigitValue(c: char): nat
    requires IsDigit(c)
  {
    c as int - '0' as int
  }

  /** `n.toString()` for a non-negative integer `n`. */
  function NatToString(n: nat): (r: string)
    ensures IsCanonical(r)
    decreases n
  {
    if n < 10 then [DigitChar(n)] else NatToString(n / 10) + [DigitChar(n % 10)]
  }

  /** `i.toString()` for any integer `i`: a minus sign before the magnitude when negative. */
  function IntToString(i: int): (r: string)
    ensures |r| >= 1
    ensures i < 0 <==> r[0] == '-'
    ensures IsIntText(r)
  {
    if i < 0 then "-" + NatToString(-i) else NatToString(i)
  }

  /** The value of a string of decimal digits (zero for the empty string). */
  function ParseDecimal(s: string): nat
    requires AllDigits(s)
  {
    if |s| == 0 then 0 else ParseDecimal(s[..|s| - 1]) * 10 + DigitValue(s[|s| - 1])
  }

  /** Reading back an integer's text: an optional minus sign, then digits. */
  function ParseInt(s: string): int
    requires |s| >= 1 && (s[0] == '-' ==> AllDigits(s[1..])) && (s[0] != '-' ==> AllDigits(s))
  {
    if s[0] == '-' then -(ParseDecimal(s[1..]) as int) else ParseDecimal(s)
  }

  /** Reading back the text of a non-negative integer gives the integer. */
  lemma {:induction false} ParseNatToString(n: nat)
    ensures ParseDecimal(NatToString(n)) == n
    decreases n
  {
    if n >= 10 {
      var prefix := NatToString(n / 10);
      var s := prefix + [DigitChar(n % 10)];
      assert s[..|s| - 1] == prefix;
      ParseNatToString(n / 10);
    }
  }

  /** Reading back the text of any integer gives the integer. */
  lemma ParseIntToString(i: int)
    ensures var s := IntToString(i);
            (s[0] == '-' ==> AllDigits(s[1..])) && (s[0] != '-' ==> AllDigits(s)) &&
            ParseInt(s) == i
  {
    if i < 0 {
      assert IntToString(i)[1..] == NatToString(-i);
      ParseNatToString(-i);
    } else {
      ParseNatToString(i);
    }
  }

  /** A canonical digit string with a non-zero leading digit denotes a positive number. */
  lemma {:induction false} ParseDecimalPositive(s: string)
    requires |s| >= 1 && AllDigits(s) && s[0] != '0'
    ensures ParseDecimal(s) > 0
    decreases |s|
  {
    if |s| > 1 {
      ParseDecimalPositive(s[..|s| - 1]);
    }
  }

  /** A canonical digit string is the text of the number it denotes. */
  lemma {:induction false} CanonicalIsNatToString(s: string)
    requires IsCanonical(s)
    ensures NatToString(ParseDecimal(s)) == s
    decreases |s|
  {
    var n := ParseDecimal(s);
    if |s| > 1 {
      var init := s[..|s| - 1];
      assert IsCanonical(init);
      CanonicalIsNatToString(init);
      ParseDecimalPositive(init);
      assert n / 10 == ParseDecimal(init) && n % 10 == DigitValue(s[|s| - 1]);
      assert s == init + [s[|s| - 1]];
    }
  }

  /**
   Integer text is unique: the only `IsIntText` string that reads back as
   `i` is `IntToString(i)`.
   */
  lemma IntTextIsToString(s: string, i: int)
    requires IsIntText(s) && ParseInt(s) == i
    ensures s == IntToString(i)
  {
    if s[0] == '-' {
      var m := s[1..];
      CanonicalIsNatToString(m);
      ParseDecimalPositive(m);
      assert s == "-" + m;
    } else {
      CanonicalIsNatToString(s);
    }
  }

  /** Distinct non-negative integers have distinct texts. */
  lemma NatToStringInjective(m: nat, n: nat)
    ensures NatToString(m) == NatToString(n) ==> m == n
  {
    ParseNatToString(m);
    ParseNatToString(n);
  }
}

=== FILE: docker.dfy ===
/**
 The container scan: turning the container runtime's raw listing into
 classified, port-annotated `ContainerInfo` records and keeping only the
 test-infrastructure ones. The runtime query itself is I/O; its answer is the
 input sequence `raws`.
 */
module Docker {
  import opened Wrappers
  import opened Text
  import opened Decimal
  import JsObject

  /** One entry of a raw container's `Ports` list; `PublicPort` may be absent. */
  datatype PortBinding = PortBinding(privatePort: nat, publicPort: Option<nat>)

  /** One entry of the runtime's container listing. */
  datatype RawContainer = RawContainer(
    id: string,
    names: seq<string>,
    image: string,
    status: string,
    ports: seq<PortBinding>)

  datatype ContainerType = Postgres | Kafka | SchemaRegistry | Unknown

  /** The record the scan produces; `ports` maps a private port's decimal text to its public port. */
  datatype ContainerInfo = ContainerInfo(
    id: string,
    name: string,
    image: string,
    status: string,
    ports: map<string, nat>,
    containerType: ContainerType)

  /** Reading `Names[0]` of a container with no names throws a TypeError. */
  datatype ScanError = MissingName(containerId: string)

  /** `name.replace(/^\//, '')`: exactly one leading slash is removed, if there is one. */
  function StripLeadingSlash(name: string): (r: string)
    ensures |name| > 0 && name[0] == '/' ==> |r| == |name| - 1
    ensures !(|name| > 0 && name[0] == '/') ==> r == name
  {
    if |name| > 0 && name[0] == '/' then name[1..] else name
  }

  /** Putting the slash back undoes the strip. */
  lemma StripLeadingSlashInverse(name: string)
    requires |name| > 0 && name[0] == '/'
    ensures "/" + StripLeadingSlash(name) == name
  {
    assert ("/" + name[1..]) == name;
  }

  /** Only the first slash goes: `"//x"` becomes `"/x"`. */
  lemma StripLeadingSlashOnce(rest: string)
    ensures StripLeadingSlash("/" + rest) == rest
  {
    assert ("/" + rest)[1..] == rest;
  }

  /** JavaScript truthiness of `PublicPort`: absent and 0 are both falsy. */
  predicate IsPublished(b: PortBinding) {
    b.publicPort.Some? && b.publicPort.value != 0
  }

  /** The map key of a binding: `PrivatePort.toString()`. */
  function PortKey(b: PortBinding): string {
    NatToString(b.privatePort)
  }

  /** No later published binding has the same private port as binding `i`. */
  predicate IsLastPublished(bs: seq<PortBinding>, i: nat)
    requires i < |bs|
  {
    IsPublished(bs[i]) &&
    forall j :: i < j < |bs| && IsPublished(bs[j]) ==> bs[j].privatePort != bs[i].privatePort
  }

  /**
   The `forEach` over `Ports`: every published binding writes its public port
   under its private port's text, so a later binding with the same private
   port overwrites an earlier one.
   */
  function PortMap(bs: seq<PortBinding>): (m: map<string, nat>)
    ensures forall k :: k in m ==> m[k] > 0
    decreases |bs|
  {
    if |bs| == 0 then map[]
    else
      var last := bs[|bs| - 1];
      if IsPublished(last) then PortMap(bs[..|bs| - 1])[PortKey(last) := last.publicPort.value]
      else PortMap(bs[..|bs| - 1])
  }

  /** TCP port numbers are below 2^16. */
  const PortLimit: nat := 0x1_0000

  /** Every key of the port map is an array-index key of the `ports` object. */
  lemma PortKeysAreIndexKeys(bs: seq<PortBinding>)
    requires forall i :: 0 <= i < |bs| ==> bs[i].privatePort < PortLimit
    ensures forall k :: k in PortMap(bs) ==> JsObject.IsArrayIndex(k)
  {
    PortMapKeys(bs);
    forall k | k in PortMap(bs) ensures JsObject.IsArrayIndex(k) {
      var i :| 0 <= i < |bs| && IsPublished(bs[i]) && PortKey(bs[i]) == k;
      JsObject.ArrayIndexIsNumeral(bs[i].privatePort);
    }
  }

  /**
   Whatever order the bindings were written in, the `ports` object enumerates
   its keys (in `Object.keys`, `Object.entries` or JSON) in ascending numeric
   order of the private ports.
   */
  lemma PortKeysEnumerateAscending(bs: seq<PortBinding>, ks: seq<string>)
    requires forall i :: 0 <= i < |bs| ==> bs[i].privatePort < PortLimit
    requires forall i :: 0 <= i < |ks| ==> ks[i] in PortMap(bs)
    ensures JsObject.Ascending(JsObject.OwnKeys(ks))
  {
    PortKeysAreIndexKeys(bs);
    JsObject.OwnKeysNumericOrder(ks);
  }

  /** The map's keys are exactly the texts of the published private ports. */
  lemma {:induction false} PortMapKeys(bs: seq<PortBinding>)
    ensures forall i :: 0 <= i < |bs| && IsPublished(bs[i]) ==> PortKey(bs[i]) in PortMap(bs)
    ensures forall k :: k in PortMap(bs) ==>
              exists i :: 0 <= i < |bs| && IsPublished(bs[i]) && PortKey(bs[i]) == k
    decreases |bs|
  {
    if |bs| > 0 {
      var init := bs[..|bs| - 1];
      PortMapKeys(init);
      assert forall i :: 0 <= i < |init| ==> init[i] == bs[i];
    }
  }

  /** Each key holds the public port of the last published binding for that private port. */
  lemma {:induction false} PortMapLastWins(bs: seq<PortBinding>)
    ensures forall i :: 0 <= i < |bs| && IsLastPublished(bs, i) ==>
              PortKey(bs[i]) in PortMap(bs) && PortMap(bs)[PortKey(bs[i])] == bs[i].publicPort.value
    decreases |bs|
  {
    if |bs| > 0 {
      var init := bs[..|bs| - 1];
      var last := bs[|bs| - 1];
      PortMapLastWins(init);
      forall i | 0 <= i < |bs| && IsLastPublished(bs, i)
        ensures PortKey(bs[i]) in PortMap(bs) && PortMap(bs)[PortKey(bs[i])] == bs[i].publicPort.value
      {
        if i < |init| {
          assert init[i] == bs[i];
          assert IsLastPublished(init, i);
          if IsPublished(last) {
            NatToStringInjective(bs[i].privatePort, last.privatePort);
          }
        }
      }
    }
  }

  /**
   Image classification: ordered substring tests on the image name, first
   match wins (`postgres`, then `kafka`, then `schema-registry`).
   */
  function Classify(image: string): (t: ContainerType)
    ensures t == Postgres <==> Contains(image, "postgres")
    ensures t == Kafka <==> !Contains(image, "postgres") && Contains(image, "kafka")
    ensures t == SchemaRegistry <==>
              !Contains(image, "postgres") && !Contains(image, "kafka") && Contains(image, "schema-registry")
    ensures t == Unknown <==>
              !Contains(image, "postgres") && !Contains(image, "kafka") && !Contains(image, "schema-registry")
  {
    if Contains(image, "postgres") then Postgres
    else if Contains(image, "kafka") then Kafka
    else if Contains(image, "schema-registry") then SchemaRegistry
    else Unknown
  }

  /** The body of the `map` callback: one raw container to one record, or the TypeError of a nameless one. */
  function Describe(c: RawContainer): (r: Result<ContainerInfo, ScanError>)
    ensures r.Failure? <==> |c.names| == 0
    ensures r.Success? ==>
              && r.value.id == c.id
              && r.value.image == c.image
              && r.value.status == c.status
              && r.value.name == StripLeadingSlash(c.names[0])
              && r.value.ports == PortMap(c.ports)
              && r.value.containerType == Classify(c.image)
  {
    if |c.names| == 0 then Failure(MissingName(c.id))
    else Success(ContainerInfo(c.id, StripLeadingSlash(c.names[0]), c.image, c.status,
                               PortMap(c.ports), Classify(c.image)))
  }

  /** `containers.map(...)`: the first nameless container aborts the whole scan. */
  function DescribeAll(cs: seq<RawContainer>): (r: Result<seq<ContainerInfo>, ScanError>)
    ensures r.Failure? <==> exists i :: 0 <= i < |cs| && |cs[i].names| == 0
    ensures r.Success? ==> |r.value| == |cs|
    ensures r.Success? ==> forall i :: 0 <= i < |cs| ==> Describe(cs[i]) == Success(r.value[i])
    decreases |cs|
  {
    if |cs| == 0 then Success([])
    else
      match Describe(cs[0])
      case Failure(e) => Failure(e)
      case Success(info) =>
        match DescribeAll(cs[1..])
        case Failure(e) =>
          assert forall i :: 1 <= i < |cs| ==> cs[i] == cs[1..][i - 1];
          Failure(e)
        case Success(rest) =>
          assert forall i :: 1 <= i < |cs| ==> cs[i] == cs[1..][i - 1];
          Success([info] + rest)
  }

  /** The `filter` predicate: a known type, or a name marking it as a test container. */
  predicate IsRetained(c: ContainerInfo) {
    c.containerType != Unknown || Contains(c.name, "testcontainers")
  }

  /** `infos.filter(IsRetained)`. */
  function Retain(infos: seq<ContainerInfo>): (r: seq<ContainerInfo>)
    ensures |r| <= |infos|
    ensures forall c :: c in r ==> c in infos && IsRetained(c)
    decreases |infos|
  {
    if |infos| == 0 then []
    else
      var last := infos[|infos| - 1];
      Retain(infos[..|infos| - 1]) + (if IsRetained(last) then [last] else [])
  }

  /** The positions of the retained records, in increasing order: the reference definition of the filter. */
  function RetainedIndices(infos: seq<ContainerInfo>): seq<nat>
    decreases |infos|
  {
    if |infos| == 0 then []
    else
      RetainedIndices(infos[..|infos| - 1])
        + (if IsRetained(infos[|infos| - 1]) then [|infos| - 1] else [])
  }

  predicate StrictlyIncreasing(xs: seq<nat>) {
    forall i, j :: 0 <= i < j < |xs| ==> xs[i] < xs[j]
  }

  /**
   The filter keeps exactly the retained records, in their original order:
   its output is the input read at the retained positions.
   */
  lemma RetainSelectsInOrder(infos: seq<ContainerInfo>)
    ensures var r, ix := Retain(infos), RetainedIndices(infos);
            && |r| == |ix|
            && StrictlyIncreasing(ix)
            && (forall j :: 0 <= j < |ix| ==> ix[j] < |infos| && r[j] == infos[ix[j]])
            && (forall i :: 0 <= i < |infos| ==> (i in ix <==> IsRetained(infos[i])))
  {
    RetainedIndicesExact(infos);
    RetainAtIndices(infos);
  }

  /** The reference positions are increasing, in range, and are exactly the retained ones. */
  lemma RetainedIndicesExact(infos: seq<ContainerInfo>)
    ensures var ix := RetainedIndices(infos);
            && StrictlyIncreasing(ix)
            && (forall j :: 0 <= j < |ix| ==> ix[j] < |infos|)
            && (forall i :: 0 <= i < |infos| ==> (i in ix <==> IsRetained(infos[i])))
  {
    RetainedIndicesIncreasing(infos);
    RetainedIndicesMembers(infos);
  }

  /** The reference positions are in range and strictly increasing. */
  lemma {:induction false} RetainedIndicesIncreasing(infos: seq<ContainerInfo>)
    ensures var ix := RetainedIndices(infos);
            && StrictlyIncreasing(ix)
            && (forall j :: 0 <= j < |ix| ==> ix[j] < |infos|)
    decreases |infos|
  {
    if |infos| > 0 {
      RetainedIndicesIncreasing(infos[..|infos| - 1]);
    }
  }

  /** A position is among the reference positions iff the record there is retained. */
  lemma {:induction false} RetainedIndicesMembers(infos: seq<ContainerInfo>)
    ensures var ix := RetainedIndices(infos);
            forall i :: 0 <= i < |infos| ==> (i in ix <==> IsRetained(infos[i]))
    decreases |infos|
  {
    if |infos| > 0 {
      var init := infos[..|infos| - 1];
      RetainedIndicesIncreasing(init);
      RetainedIndicesMembers(init);
      assert forall i :: 0 <= i < |init| ==> init[i] == infos[i];
    }
  }

  /** The filter's j-th output is the record at the j-th reference position. */
  lemma {:induction false} RetainAtIndices(infos: seq<ContainerInfo>)
    ensures var r, ix := Retain(infos), RetainedIndices(infos);
            && |r| == |ix|
            && (forall j :: 0 <= j < |ix| ==> ix[j] < |infos| && r[j] == infos[ix[j]])
    decreases |infos|
  {
    if |infos| > 0 {
      var init := infos[..|infos| - 1];
      RetainAtIndices(init);
      assert forall i :: 0 <= i < |init| ==> init[i] == infos[i];
    }
  }


  /** A record is in the filtered list iff it was in the input and is retained. */
  lemma {:induction false} RetainMembership(infos: seq<ContainerInfo>, c: ContainerInfo)
    ensures c in Retain(infos) <==> c in infos && IsRetained(c)
    decreases |infos|
  {
    if |infos| > 0 {
      var init := infos[..|infos| - 1];
      RetainMembership(init, c);
      assert infos == init + [infos[|infos| - 1]];
    }
  }

  /** `listTestcontainers` applied to the runtime's listing `raws`. */
  function ListTestcontainers(raws: seq<RawContainer>): (r: Result<seq<ContainerInfo>, ScanError>)
    ensures r.Failure? <==> exists i :: 0 <= i < |raws| && |raws[i].names| == 0
    ensures r.Success? ==> forall c :: c in r.value ==> IsRetained(c)
    ensures r.Success? ==> |r.value| <= |raws|
  {
    match DescribeAll(raws)
    case Failure(e) => Failure(e)
    case Success(infos) =>
      forall c | c in Retain(infos) ensures IsRetained(c) { RetainMembership(infos, c); }
      Success(Retain(infos))
  }

  /**
   End to end: when every container has a name, the scan succeeds and each
   output record is the description of a retained raw container, in listing order.
   */
  lemma ListTestcontainersSelects(raws: seq<RawContainer>)
    requires forall i :: 0 <= i < |raws| ==> |raws[i].names| > 0
    ensures ListTestcontainers(raws).Success?
    ensures var r := ListTestcontainers(raws).value;
            var ix := RetainedIndices(DescribeAll(raws).value);
            && |r| == |ix|
            && StrictlyIncreasing(ix)
            && forall j :: 0 <= j < |r| ==>
                 && ix[j] < |raws|
                 && r[j].id == raws[ix[j]].id
                 && r[j].image == raws[ix[j]].image
                 && r[j].status == raws[ix[j]].status
                 && r[j].name == StripLeadingSlash(raws[ix[j]].names[0])
                 && r[j].ports == PortMap(raws[ix[j]].ports)
                 && r[j].containerType == Classify(raws[ix[j]].image)
                 && IsRetained(r[j])
  {
    var infos := DescribeAll(raws).value;
    RetainSelectsInOrder(infos);
  }

  /** A relational-store image is classified as such even when it also names the broker. */
  lemma ClassifyPostgresFirst(image: string)
    requires Contains(image, "postgres") && Contains(image, "kafka")
    ensures Classify(image) == Postgres
  {
  }

  /** The relational store's image of a typical test setup. */
  lemma ClassifyPostgresExample()
    ensures Classify("postgres:15") == Postgres
  {
    assert "postgres:15"[0..8] == "postgres";
    ContainsWitness("postgres:15", "postgres", 0);
  }

  /** The broker's image of a typical test setup. */
  lemma ClassifyKafkaExample()
    ensures Classify("confluentinc/cp-kafka:7.5.0") == Kafka
  {
    var image := "confluentinc/cp-kafka:7.5.0";
    NoPostgresInKafkaImage(image);
    KafkaAt(image);
    ContainsWitness(image, "kafka", 16);
  }

  lemma KafkaAt(image: string)
    requires image == "confluentinc/cp-kafka:7.5.0"
    ensures OccursAt(image, "kafka", 16)
  {
    assert image[16..21] == "kafka";
  }

  // The helpers below take the image as a parameter pinned by `requires`: with the
  // literal written in place, the verifier unfolds `IndexFrom` over the whole string
  // at each use, which costs several times more.
  lemma NoPostgresInKafkaImage(image: string)
    requires image == "confluentinc/cp-kafka:7.5.0"
    ensures !Contains(image, "postgres")
  {
    AbsentPair(image, "postgres", 0);
  }

  /** The registry's image of a typical test setup. */
  lemma ClassifySchemaRegistryExample()
    ensures Classify("confluentinc/cp-schema-registry:7.5.0") == SchemaRegistry
  {
    var image := "confluentinc/cp-schema-registry:7.5.0";
    NoOtherService(image);
    SchemaRegistryAt(image);
    ContainsWitness(image, "schema-registry", 16);
  }

  /** The registry image names neither the relational store nor the broker. */
  lemma NoOtherService(image: string)
    requires image == "confluentinc/cp-schema-registry:7.5.0"
    ensures !Contains(image, "postgres") && !Contains(image, "kafka")
  {
    NoAdjacent(image, 'p', 'o');
    AbsentPair(image, "postgres", 0);
    NoAdjacent(image, 'k', 'a');
    AbsentPair(image, "kafka", 0);
  }

  lemma SchemaRegistryAt(image: string)
    requires image == "confluentinc/cp-schema-registry:7.5.0"
    ensures OccursAt(image, "schema-registry", 16)
  {
    assert image[16..31] == "schema-registry";
  }

  /** No `po` and no `ka` in the registry image; the pair is a parameter for the same reason as the image. */
  lemma NoAdjacent(s: string, a: char, b: char)
    requires s == "confluentinc/cp-schema-registry:7.5.0"
    requires (a, b) == ('p', 'o') || (a, b) == ('k', 'a')
    ensures forall i :: 0 <= i < |s| - 1 ==> !(s[i] == a && s[i + 1] == b)
  {
  }
}

=== FILE: env.dfy ===
/**
 The process environment as a map from variable name to value, and the
 `process.env.NAME || fallback` idiom: JavaScript's `||` treats both an unset
 variable and the empty string as missing.
 */
module Env {

  type Environment = map<string, string>

  /** The variable holds a truthy value: it is present and not empty. */
  predicate IsSet(env: Environment, name: string) {
    name in env && env[name] != ""
  }

  /** `env[name] || fallback`. */
  function OrDefault(env: Environment, name: string, fallback: string): (r: string)
    ensures IsSet(env, name) ==> r == env[name]
    ensures !IsSet(env, name) ==> r == fallback
    ensures fallback != "" ==> r != ""
  {
    if IsSet(env, name) then env[name] else fallback
  }
}

=== FILE: jsobject.dfy ===
/**
 The parts of JavaScript's plain-object semantics the table grouping relies
 on: the order `Object.values` lists own properties in (array-index keys in
 ascending numeric order, then the other string keys in insertion order, as
 section 10.1.11.1 of ECMA-262, OrdinaryOwnPropertyKeys, prescribes) and the
 names every plain object inherits from `Object.prototype`.
 */
module JsObject {
  import opened Decimal

  /** 2^32 - 1: array indices are the canonical numerals below it. */
  const ArrayIndexLimit: nat := 0xFFFF_FFFF

  predicate IsArrayIndex(k: string) {
    IsCanonical(k) && ParseDecimal(k) < ArrayIndexLimit
  }

  /** The numeral texts of the integers below the limit are exactly the array-index keys. */
  lemma ArrayIndexIsNumeral(n: nat)
    ensures IsArrayIndex(NatToString(n)) <==> n < ArrayIndexLimit
  {
    ParseNatToString(n);
  }

  /**
   The members of `Object.prototype`: on a plain object `{}`, reading any of
   these names yields an inherited function or object, which is truthy.
   */
  const PrototypeMembers: set<string> := {
    "constructor", "__proto__", "hasOwnProperty", "isPrototypeOf", "propertyIsEnumerable",
    "toString", "toLocaleString", "valueOf",
    "__defineGetter__", "__defineSetter__", "__lookupGetter__", "__lookupSetter__"
  }

  predicate Distinct<T(==)>(xs: seq<T>) {
    forall i, j :: 0 <= i < j < |xs| ==> xs[i] != xs[j]
  }

  /** The numeric value of an array-index key (zero for any other key, which is never compared). */
  function IndexValue(k: string): nat {
    if AllDigits(k) then ParseDecimal(k) else 0
  }

  predicate Ascending(ks: seq<string>) {
    forall i, j :: 0 <= i < j < |ks| ==> IndexValue(ks[i]) <= IndexValue(ks[j])
  }

  /** Insertion of a key into a list kept in ascending numeric order. */
  function InsertIndexKey(k: string, ks: seq<string>): seq<string>
    decreases |ks|
  {
    if |ks| == 0 then [k]
    else if IndexValue(k) <= IndexValue(ks[0]) then [k] + ks
    else [ks[0]] + InsertIndexKey(k, ks[1..])
  }

  lemma {:induction false} InsertIndexKeyPermutes(k: string, ks: seq<string>)
    ensures multiset(InsertIndexKey(k, ks)) == multiset(ks) + multiset{k}
    decreases |ks|
  {
    if |ks| > 0 && IndexValue(k) > IndexValue(ks[0]) {
      InsertIndexKeyPermutes(k, ks[1..]);
      assert ks == [ks[0]] + ks[1..];
    }
  }

  predicate AllAtLeast(ks: seq<string>, v: nat) {
    forall i :: 0 <= i < |ks| ==> v <= IndexValue(ks[i])
  }

  lemma {:induction false} InsertIndexKeyBound(k: string, ks: seq<string>, v: nat)
    requires AllAtLeast(ks, v) && v <= IndexValue(k)
    ensures AllAtLeast(InsertIndexKey(k, ks), v)
    decreases |ks|
  {
    if |ks| > 0 && IndexValue(k) > IndexValue(ks[0]) {
      InsertIndexKeyBound(k, ks[1..], v);
    }
  }

  lemma AscendingCons(x: string, rest: seq<string>)
    requires Ascending(rest) && AllAtLeast(rest, IndexValue(x))
    ensures Ascending([x] + rest)
  {
    var r := [x] + rest;
    forall i, j | 0 <= i < j < |r| ensures IndexValue(r[i]) <= IndexValue(r[j]) {
      assert r[j] == rest[j - 1];
      if i > 0 {
        assert r[i] == rest[i - 1];
      }
    }
  }

  lemma {:induction false} InsertIndexKeyAscending(k: string, ks: seq<string>)
    requires Ascending(ks)
    ensures Ascending(InsertIndexKey(k, ks))
    decreases |ks|
  {
    if |ks| > 0 {
      if IndexValue(k) <= IndexValue(ks[0]) {
        assert AllAtLeast(ks, IndexValue(k)) by {
          forall i | 0 <= i < |ks| ensures IndexValue(k) <= IndexValue(ks[i]) {
            if i > 0 {
              assert IndexValue(ks[0]) <= IndexValue(ks[i]);
            }
          }
        }
        AscendingCons(k, ks);
      } else {
        var tail := ks[1..];
        assert Ascending(tail) by {
          forall i, j | 0 <= i < j < |tail| ensures IndexValue(tail[i]) <= IndexValue(tail[j]) {
            assert tail[i] == ks[i + 1] && tail[j] == ks[j + 1];
          }
        }
        assert AllAtLeast(tail, IndexValue(ks[0])) by {
          forall i | 0 <= i < |tail| ensures IndexValue(ks[0]) <= IndexValue(tail[i]) {
            assert tail[i] == ks[i + 1];
          }
        }
        InsertIndexKeyAscending(k, tail);
        InsertIndexKeyBound(k, tail, IndexValue(ks[0]));
        AscendingCons(ks[0], InsertIndexKey(k, tail));
      }
    }
  }

  /** The array-index keys of `ks`, in ascending numeric order. */
  function IndexKeys(ks: seq<string>): (r: seq<string>)
    ensures Ascending(r)
    decreases |ks|
  {
    if |ks| == 0 then []
    else
      var last := ks[|ks| - 1];
      var init := IndexKeys(ks[..|ks| - 1]);
      if IsArrayIndex(last) then
        InsertIndexKeyAscending(last, init);
        InsertIndexKey(last, init)
      else init
  }

  /** The other keys of `ks`, in insertion order. */
  function NamedKeys(ks: seq<string>): (r: seq<string>)
    ensures forall i :: 0 <= i < |r| ==> !IsArrayIndex(r[i])
    decreases |ks|
  {
    if |ks| == 0 then []
    else
      var last := ks[|ks| - 1];
      NamedKeys(ks[..|ks| - 1]) + (if IsArrayIndex(last) then [] else [last])
  }

  lemma {:induction false} IndexKeysCount(ks: seq<string>, k: string)
    ensures multiset(IndexKeys(ks))[k] == (if IsArrayIndex(k) then multiset(ks)[k] else 0)
    decreases |ks|
  {
    if |ks| > 0 {
      var last := ks[|ks| - 1];
      var init := ks[..|ks| - 1];
      IndexKeysCount(init, k);
      assert ks == init + [last];
      if IsArrayIndex(last) {
        InsertIndexKeyPermutes(last, IndexKeys(init));
      }
    }
  }

  lemma {:induction false} NamedKeysCount(ks: seq<string>, k: string)
    ensures multiset(NamedKeys(ks))[k] == (if IsArrayIndex(k) then 0 else multiset(ks)[k])
    decreases |ks|
  {
    if |ks| > 0 {
      var last := ks[|ks| - 1];
      var init := ks[..|ks| - 1];
      NamedKeysCount(init, k);
      assert ks == init + [last];
      assert multiset(ks) == multiset(init) + multiset{last};
      assert NamedKeys(ks) == NamedKeys(init) + (if IsArrayIndex(last) then [] else [last]);
    }
  }

  /** The own keys of an object whose keys were created in the order `ks`, in enumeration order. */
  function OwnKeys(ks: seq<string>): (r: seq<string>)
    ensures |r| == |ks|
    ensures multiset(r) == multiset(ks)
    ensures forall k :: k in r <==> k in ks
  {
    var r := IndexKeys(ks) + NamedKeys(ks);
    forall k ensures multiset(r)[k] == multiset(ks)[k] {
      IndexKeysCount(ks, k);
      NamedKeysCount(ks, k);
    }
    assert multiset(r) == multiset(ks);
    assert |r| == |multiset(r)| == |multiset(ks)| == |ks|;
    assert forall k :: k in r <==> k in multiset(r);
    assert forall k :: k in ks <==> k in multiset(ks);
    r
  }

  /** Array-index keys come first, in ascending numeric order; the other keys follow. */
  lemma OwnKeysOrder(ks: seq<string>)
    ensures var r, n := OwnKeys(ks), |IndexKeys(ks)|;
            && (forall i :: 0 <= i < n ==> IsArrayIndex(r[i]))
            && (forall i :: n <= i < |r| ==> !IsArrayIndex(r[i]))
            && (forall i, j :: 0 <= i < j < n ==> IndexValue(r[i]) <= IndexValue(r[j]))
  {
    var ix := IndexKeys(ks);
    forall i | 0 <= i < |ix| ensures IsArrayIndex(ix[i]) {
      assert ix[i] in multiset(ix);
      IndexKeysCount(ks, ix[i]);
    }
  }

  /** When no key looks like an array index, enumeration order is insertion order. */
  lemma {:induction false} OwnKeysInsertionOrder(ks: seq<string>)
    requires forall i :: 0 <= i < |ks| ==> !IsArrayIndex(ks[i])
    ensures OwnKeys(ks) == ks
  {
    NoIndexKeys(ks);
    AllNamedKeys(ks);
  }

  /** When every key is an array index, enumeration order is ascending numeric order. */
  lemma OwnKeysNumericOrder(ks: seq<string>)
    requires forall i :: 0 <= i < |ks| ==> IsArrayIndex(ks[i])
    ensures OwnKeys(ks) == IndexKeys(ks)
    ensures Ascending(OwnKeys(ks))
  {
    NoNamedKeys(ks);
  }

  lemma {:induction false} NoNamedKeys(ks: seq<string>)
    requires forall i :: 0 <= i < |ks| ==> IsArrayIndex(ks[i])
    ensures NamedKeys(ks) == []
    decreases |ks|
  {
    if |ks| > 0 {
      var init := ks[..|ks| - 1];
      assert forall i :: 0 <= i < |init| ==> init[i] == ks[i];
      NoNamedKeys(init);
      assert IsArrayIndex(ks[|ks| - 1]);
    }
  }

  lemma {:induction false} NoIndexKeys(ks: seq<string>)
    requires forall i :: 0 <= i < |ks| ==> !IsArrayIndex(ks[i])
    ensures IndexKeys(ks) == []
    decreases |ks|
  {
    if |ks| > 0 {
      var init := ks[..|ks| - 1];
      assert forall i :: 0 <= i < |init| ==> init[i] == ks[i];
      NoIndexKeys(init);
      assert !IsArrayIndex(ks[|ks| - 1]);
    }
  }

  lemma {:induction false} AllNamedKeys(ks: seq<string>)
    requires forall i :: 0 <= i < |ks| ==> !IsArrayIndex(ks[i])
    ensures NamedKeys(ks) == ks
    decreases |ks|
  {
    if |ks| > 0 {
      var init := ks[..|ks| - 1];
      assert forall i :: 0 <= i < |init| ==> init[i] == ks[i];
      AllNamedKeys(init);
      assert !IsArrayIndex(ks[|ks| - 1]);
      assert NamedKeys(ks) == NamedKeys(init) + [ks[|ks| - 1]];
      assert ks == init + [ks[|ks| - 1]];
    }
  }

  lemma {:induction false} DistinctCount<T>(xs: seq<T>, x: T)
    requires Distinct(xs)
    ensures multiset(xs)[x] <= 1
    decreases |xs|
  {
    if |xs| > 0 {
      var init := xs[..|xs| - 1];
      DistinctCount(init, x);
      assert xs == init + [xs[|xs| - 1]];
      if xs[|xs| - 1] == x {
        assert x !in init;
      }
    }
  }

  lemma RepeatCount<T>(xs: seq<T>, i: nat, j: nat)
    requires i < j < |xs| && xs[i] == xs[j]
    ensures multiset(xs)[xs[i]] >= 2
  {
    assert xs == xs[..j] + [xs[j]] + xs[j + 1..];
    assert xs[..j][i] == xs[i];
    assert xs[i] in multiset(xs[..j]);
  }

  /** Enumeration reorders keys but never duplicates one. */
  lemma OwnKeysDistinct(ks: seq<string>)
    requires Distinct(ks)
    ensures Distinct(OwnKeys(ks))
  {
    var r := OwnKeys(ks);
    forall i, j | 0 <= i < j < |r| ensures r[i] != r[j] {
      if r[i] == r[j] {
        RepeatCount(r, i, j);
        DistinctCount(ks, r[i]);
      }
    }
  }
}

=== FILE: kafka.dfy ===
/**
 The broker adapter's pure parts: the client settings both entry points
 build (broker address rewrite, SASL settings from the environment) and the
 reshaping of topic metadata. Connecting, listing topics and disconnecting
 are I/O done by the client library and are not modelled.
 */
module Kafka {
  import opened Text
  import Env

  const Localhost: string := "localhost"
  const Loopback: string := "127.0.0.1"

  /** `b.replace('localhost', '127.0.0.1')`: the first `localhost` in an address becomes the loopback address. */
  function RewriteBroker(b: string): (r: string)
    ensures |r| == |b|
    ensures (forall i: nat :: !OccursAt(b, Localhost, i)) ==> r == b
    ensures forall i: nat :: IsFirstOccurrence(b, Localhost, i) ==>
              r[..i] == b[..i] && r[i..i + |Loopback|] == Loopback && r[i + |Localhost|..] == b[i + |Localhost|..]
  {
    ReplaceFirst(b, Localhost, Loopback)
  }

  /** `brokers.map(...)`: the rewrite applied to every address, keeping count and order. */
  function RewriteBrokers(brokers: seq<string>): (r: seq<string>)
    ensures |r| == |brokers|
    ensures forall i :: 0 <= i < |r| ==> r[i] == RewriteBroker(brokers[i])
  {
    seq(|brokers|, i requires 0 <= i < |brokers| => RewriteBroker(brokers[i]))
  }

  /**
   Only the first occurrence is replaced: every later occurrence of
   `localhost` is still there, at the same position, after the rewrite.
   */
  lemma RewriteKeepsLaterOccurrences(b: string, i: nat, j: nat)
    requires IsFirstOccurrence(b, Localhost, i)
    requires OccursAt(b, Localhost, j) && j >= i + |Localhost|
    ensures OccursAt(RewriteBroker(b), Localhost, j)
  {
    ReplaceFirstKeepsLater(b, Localhost, Loopback, i, j);
  }

  lemma RewriteLocalExample()
    ensures RewriteBroker("localhost:9092") == "127.0.0.1:9092"
  {
    var b := "localhost:9092";
    assert b[0..9] == Localhost;
    assert IsFirstOccurrence(b, Localhost, 0);
  }

  lemma RewriteRemoteExample()
    ensures RewriteBroker("kafka:9092") == "kafka:9092"
  {
    AbsentPair("kafka:9092", Localhost, 0);
  }

  /** The SASL settings: each falls back to its default when the variable is unset or empty. */
  datatype SaslSettings = SaslSettings(mechanism: string, username: string, password: string)

  const MechanismVar: string := "KAFKA_SASL_MECHANISM"
  const UsernameVar: string := "KAFKA_SASL_USERNAME"
  const PasswordVar: string := "KAFKA_SASL_PASSWORD"

  function Sasl(env: Env.Environment): (r: SaslSettings)
    ensures Env.IsSet(env, MechanismVar) ==> r.mechanism == env[MechanismVar]
    ensures !Env.IsSet(env, MechanismVar) ==> r.mechanism == "plain"
    ensures Env.IsSet(env, UsernameVar) ==> r.username == env[UsernameVar]
    ensures !Env.IsSet(env, UsernameVar) ==> r.username == "kafkaclient"
    ensures Env.IsSet(env, PasswordVar) ==> r.password == env[PasswordVar]
    ensures !Env.IsSet(env, PasswordVar) ==> r.password == "kafkaclientpwd"
    ensures r.mechanism != "" && r.username != "" && r.password != ""
  {
    SaslSettings(
      Env.OrDefault(env, MechanismVar, "plain"),
      Env.OrDefault(env, UsernameVar, "kafkaclient"),
      Env.OrDefault(env, PasswordVar, "kafkaclientpwd"))
  }

  /** The settings both the metadata client and the consumer are built with. */
  datatype ClientSettings = ClientSettings(clientId: string, brokers: seq<string>, sasl: SaslSettings)

  function Settings(brokers: seq<string>, env: Env.Environment): (r: ClientSettings)
    ensures r.clientId == "testcontainer-checker"
    ensures |r.brokers| == |brokers|
    ensures forall i :: 0 <= i < |brokers| ==> r.brokers[i] == RewriteBroker(brokers[i])
    ensures r.sasl == Sasl(env)
  {
    ClientSettings("testcontainer-checker", RewriteBrokers(brokers), Sasl(env))
  }

  /** A topic as the broker's metadata reports it; `P` is the partition record, passed through untouched. */
  datatype TopicMetadata<P> = TopicMetadata(name: string, partitions: seq<P>)

  /** `{...t, topic: t.name}`: every field of the topic plus a `topic` field. */
  datatype TopicEntry<P> = TopicEntry(name: string, partitions: seq<P>, topic: string)

  function Reshape<P>(t: TopicMetadata<P>): TopicEntry<P> {
    TopicEntry(t.name, t.partitions, t.name)
  }

  /** `metadata.topics.map(...)`. */
  function ReshapeTopics<P>(ts: seq<TopicMetadata<P>>): (r: seq<TopicEntry<P>>)
    ensures |r| == |ts|
    ensures forall i :: 0 <= i < |r| ==> Original(r[i]) == ts[i] && r[i].topic == ts[i].name
  {
    seq(|ts|, i requires 0 <= i < |ts| => Reshape(ts[i]))
  }

  /** Dropping the added field: the reshape loses nothing, so this gives back the broker's entry. */
  function Original<P>(e: TopicEntry<P>): TopicMetadata<P> {
    TopicMetadata(e.name, e.partitions)
  }
}

=== FILE: postgres.dfy ===
/**
 The relational adapter's pure parts: connection settings from the
 environment, the grouping of column-metadata rows into one `TableInfo` per
 table, and the text of the table-data query. Connecting and running the
 queries is I/O; the metadata query's answer is the input sequence `rows`.
 */
module Postgres {
  import opened Wrappers
  import opened JsObject
  import Decimal
  import Env

  datatype ConnectionSettings = ConnectionSettings(
    host: string,
    port: nat,
    user: string,
    password: string,
    database: string,
    connectionTimeoutMillis: nat)

  const UserVar: string := "POSTGRES_USER"
  const PasswordVar: string := "POSTGRES_PASSWORD"
  const DatabaseVar: string := "POSTGRES_DB"

  /** The client settings of both queries: credentials default to `test` when unset or empty. */
  function Connection(host: string, port: nat, env: Env.Environment): (r: ConnectionSettings)
    ensures r.host == host && r.port == port && r.connectionTimeoutMillis == 5000
    ensures Env.IsSet(env, UserVar) ==> r.user == env[UserVar]
    ensures !Env.IsSet(env, UserVar) ==> r.user == "test"
    ensures Env.IsSet(env, PasswordVar) ==> r.password == env[PasswordVar]
    ensures !Env.IsSet(env, PasswordVar) ==> r.password == "test"
    ensures Env.IsSet(env, DatabaseVar) ==> r.database == env[DatabaseVar]
    ensures !Env.IsSet(env, DatabaseVar) ==> r.database == "test"
  {
    ConnectionSettings(host, port,
      Env.OrDefault(env, UserVar, "test"),
      Env.OrDefault(env, PasswordVar, "test"),
      Env.OrDefault(env, DatabaseVar, "test"),
      5000)
  }

  const QueryHead: string := "SELECT * FROM "
  const QueryTail: string := " LIMIT 100"

  /** The table-data query: the table name is spliced in verbatim, without quoting or escaping. */
  function DataQuery(tableName: string): (q: string)
    ensures |q| == |QueryHead| + |tableName| + |QueryTail|
    ensures q[..|QueryHead|] == QueryHead
    ensures q[|q| - |QueryTail|..] == QueryTail
    ensures q[|QueryHead|..|q| - |QueryTail|] == tableName
  {
    QueryHead + tableName + QueryTail
  }

  /** Distinct table names give distinct queries. */
  lemma DataQueryInjective(a: string, b: string)
    ensures DataQuery(a) == DataQuery(b) ==> a == b
  {
    if DataQuery(a) == DataQuery(b) {
      var q := DataQuery(a);
      assert a == q[|QueryHead|..|q| - |QueryTail|];
    }
  }

  /** One row of the column-metadata query. */
  datatype Row = Row(tableName: string, columnName: string, dataType: string)

  datatype Column = Column(name: string, dataType: string)

  datatype TableInfo = TableInfo(name: string, columns: seq<Column>)

  function ColumnOf(row: Row): Column {
    Column(row.columnName, row.dataType)
  }

  /** Reference definition: the columns of the rows naming table `name`, in row order. */
  function ColumnsOf(rows: seq<Row>, name: string): seq<Column>
    decreases |rows|
  {
    if |rows| == 0 then []
    else
      var last := rows[|rows| - 1];
      ColumnsOf(rows[..|rows| - 1], name) + (if last.tableName == name then [ColumnOf(last)] else [])
  }

  /** Reference definition: the distinct table names, in order of first appearance. */
  function TableNames(rows: seq<Row>): (ns: seq<string>)
    ensures Distinct(ns)
    ensures forall n :: n in ns <==> exists i :: 0 <= i < |rows| && rows[i].tableName == n
    decreases |rows|
  {
    if |rows| == 0 then []
    else
      var init := rows[..|rows| - 1];
      var n := rows[|rows| - 1].tableName;
      var ns := TableNames(init);
      assert forall i :: 0 <= i < |init| ==> init[i] == rows[i];
      if n in ns then ns else ns + [n]
  }

  /** A name that no row carries has no columns. */
  lemma {:induction false} ColumnsOfAbsent(rows: seq<Row>, name: string)
    requires name !in TableNames(rows)
    ensures ColumnsOf(rows, name) == []
    decreases |rows|
  {
    if |rows| > 0 {
      ColumnsOfAbsent(rows[..|rows| - 1], name);
    }
  }

  /**
   First-appearance order: the names seen in any prefix of the rows are a
   prefix of the names of all rows, so a name first seen later comes later.
   */
  lemma {:induction false} TableNamesPrefix(rows: seq<Row>, q: nat)
    requires q <= |rows|
    ensures TableNames(rows[..q]) <= TableNames(rows)
    decreases |rows| - q
  {
    if q < |rows| {
      TableNamesPrefix(rows, q + 1);
      assert rows[..q + 1][..q] == rows[..q];
    } else {
      assert rows[..q] == rows;
    }
  }

  /** The grouping object `tables`: its own keys in creation order, and the table stored under each. */
  datatype Tables = Tables(keys: seq<string>, entries: map<string, TableInfo>)

  /**
   One iteration of the `forEach`: create the table on first sight of its
   name, then append the row's column to it. Lookup sees only entries the
   loop created.
   */
  function AddRow(t: Tables, row: Row): (r: Tables)
    ensures row.tableName in r.entries
    ensures row.tableName in t.entries ==>
              && r.keys == t.keys
              && r.entries[row.tableName].name == t.entries[row.tableName].name
              && r.entries[row.tableName].columns == t.entries[row.tableName].columns + [ColumnOf(row)]
    ensures row.tableName !in t.entries ==>
              r.keys == t.keys + [row.tableName] && r.entries[row.tableName] == TableInfo(row.tableName, [ColumnOf(row)])
    ensures r.entries.Keys == t.entries.Keys + {row.tableName}
    ensures r.entries - {row.tableName} == t.entries - {row.tableName}
  {
    var n := row.tableName;
    if n in t.entries then
      Tables(t.keys, t.entries[n := t.entries[n].(columns := t.entries[n].columns + [ColumnOf(row)])])
    else
      Tables(t.keys + [n], t.entries[n := TableInfo(n, [ColumnOf(row)])])
  }

  /** The whole `forEach`, starting from `{}`. */
  function Group(rows: seq<Row>): (r: Tables)
    ensures forall k :: k in r.entries ==> r.entries[k].name == k
    ensures forall i :: 0 <= i < |rows| ==> rows[i].tableName in r.entries
    decreases |rows|
  {
    if |rows| == 0 then Tables([], map[])
    else AddRow(Group(rows[..|rows| - 1]), rows[|rows| - 1])
  }

  /** The grouping object holds, in first-appearance order, one table per name with that name's columns. */
  lemma {:induction false} GroupMatchesReference(rows: seq<Row>)
    ensures var t := Group(rows);
            && t.keys == TableNames(rows)
            && (forall n :: n in t.entries <==> n in t.keys)
            && (forall n :: n in t.entries ==> t.entries[n] == TableInfo(n, ColumnsOf(rows, n)))
    decreases |rows|
  {
    if |rows| > 0 {
      var init := rows[..|rows| - 1];
      GroupMatchesReference(init);
      var n := rows[|rows| - 1].tableName;
      if n !in TableNames(init) {
        ColumnsOfAbsent(init, n);
      }
    }
  }

  /** `Object.values(tables)`: the stored tables in the object's enumeration order. */
  function Values(entries: map<string, TableInfo>, ks: seq<string>): (r: seq<TableInfo>)
    requires forall k :: k in ks ==> k in entries
    ensures |r| == |ks|
    ensures forall i :: 0 <= i < |ks| ==> r[i] == entries[ks[i]]
  {
    seq(|ks|, i requires 0 <= i < |ks| => entries[ks[i]])
  }

  function Names(ts: seq<TableInfo>): (ns: seq<string>)
    ensures |ns| == |ts|
    ensures forall i :: 0 <= i < |ts| ==> ns[i] == ts[i].name
  {
    seq(|ts|, i requires 0 <= i < |ts| => ts[i].name)
  }

  function TotalColumns(ts: seq<TableInfo>): nat
    decreases |ts|
  {
    if |ts| == 0 then 0 else TotalColumns(ts[..|ts| - 1]) + |ts[|ts| - 1].columns|
  }

  /** The column counts of the tables named `ns`, per the reference definition. */
  function SumColumns(ns: seq<string>, rows: seq<Row>): nat
    decreases |ns|
  {
    if |ns| == 0 then 0 else SumColumns(ns[..|ns| - 1], rows) + |ColumnsOf(rows, ns[|ns| - 1])|
  }

  lemma {:induction false} SumColumnsAddRow(ns: seq<string>, rows: seq<Row>, row: Row)
    requires Distinct(ns)
    ensures SumColumns(ns, rows + [row]) == SumColumns(ns, rows) + (if row.tableName in ns then 1 else 0)
    decreases |ns|
  {
    var rows' := rows + [row];
    assert rows'[..|rows'| - 1] == rows;
    if |ns| > 0 {
      var init := ns[..|ns| - 1];
      SumColumnsAddRow(init, rows, row);
      assert ns == init + [ns[|ns| - 1]];
    }
  }

  /** Every row is counted once: the reference column counts of all table names add up to the row count. */
  lemma {:induction false} SumColumnsCountsRows(rows: seq<Row>)
    ensures SumColumns(TableNames(rows), rows) == |rows|
    decreases |rows|
  {
    if |rows| > 0 {
      var init := rows[..|rows| - 1];
      var row := rows[|rows| - 1];
      assert rows == init + [row];
      var ns := TableNames(init);
      SumColumnsCountsRows(init);
      SumColumnsAddRow(ns, init, row);
      if row.tableName !in ns {
        var ns' := ns + [row.tableName];
        assert ns'[..|ns'| - 1] == ns;
        ColumnsOfAbsent(init, row.tableName);
      }
    }
  }

  lemma {:induction false} SumColumnsConcat(a: seq<string>, b: seq<string>, rows: seq<Row>)
    ensures SumColumns(a + b, rows) == SumColumns(a, rows) + SumColumns(b, rows)
    decreases |b|
  {
    if |b| == 0 {
      assert a + b == a;
    } else {
      var b' := b[..|b| - 1];
      SumColumnsConcat(a, b', rows);
      assert (a + b)[..|a + b| - 1] == a + b';
    }
  }

  /** The total does not depend on the order the tables are listed in. */
  lemma {:induction false} SumColumnsPermutation(a: seq<string>, b: seq<string>, rows: seq<Row>)
    requires multiset(a) == multiset(b)
    ensures SumColumns(a, rows) == SumColumns(b, rows)
    decreases |a|
  {
    if |a| == 0 {
      assert |b| == |multiset(b)| == 0;
    } else {
      var x := a[|a| - 1];
      var a' := a[..|a| - 1];
      assert a == a' + [x];
      assert x in multiset(b);
      var j :| 0 <= j < |b| && b[j] == x;
      var b' := b[..j] + b[j + 1..];
      assert b == b[..j] + [x] + b[j + 1..];
      assert multiset(b) == multiset(b[..j]) + multiset{x} + multiset(b[j + 1..]);
      assert multiset(b') == multiset(b[..j]) + multiset(b[j + 1..]);
      assert multiset(a) == multiset(a') + multiset{x};
      assert multiset(a') + multiset{x} == multiset(b') + multiset{x};
      assert multiset(a') == multiset(a') + multiset{x} - multiset{x};
      assert multiset(b') == multiset(b') + multiset{x} - multiset{x};
      SumColumnsPermutation(a', b', rows);
      SumColumnsConcat(b[..j] + [x], b[j + 1..], rows);
      SumColumnsConcat(b[..j], [x], rows);
      SumColumnsConcat(b[..j], b[j + 1..], rows);
      assert [x][..0] == [];
    }
  }

  lemma {:induction false} TotalColumnsOfValues(entries: map<string, TableInfo>, ks: seq<string>, rows: seq<Row>)
    requires forall k :: k in ks ==> k in entries && entries[k].columns == ColumnsOf(rows, k)
    ensures TotalColumns(Values(entries, ks)) == SumColumns(ks, rows)
    decreases |ks|
  {
    if |ks| > 0 {
      var init := ks[..|ks| - 1];
      TotalColumnsOfValues(entries, init, rows);
      assert Values(entries, ks)[..|ks| - 1] == Values(entries, init);
    }
  }

  /** `Object.values(tables)`: the stored tables, listed in the enumeration order of their keys. */
  function ObjectValues(t: Tables): (r: seq<TableInfo>)
    requires forall k :: k in t.keys ==> k in t.entries
    ensures |r| == |t.keys|
    ensures forall i :: 0 <= i < |r| ==> r[i] == t.entries[OwnKeys(t.keys)[i]]
  {
    Values(t.entries, OwnKeys(t.keys))
  }

  /**
   The corrected `getTables` grouping: one table per distinct name, each with
   exactly the columns of its rows in row order, listed in the object's
   enumeration order of the names' first appearances. It agrees with the code
   as written (`GetTablesAsWritten`) whenever no table is named after an
   `Object.prototype` member.
   */
  function GetTables(rows: seq<Row>): (r: seq<TableInfo>)
    ensures Names(r) == OwnKeys(TableNames(rows))
    ensures Distinct(Names(r))
    ensures forall i :: 0 <= i < |r| ==> r[i].columns == ColumnsOf(rows, r[i].name)
  {
    GroupMatchesReference(rows);
    var r := ObjectValues(Group(rows));
    GetTablesProperties(rows, r);
    r
  }

  lemma GetTablesProperties(rows: seq<Row>, r: seq<TableInfo>)
    requires var t := Group(rows);
             && (forall k :: k in t.keys ==> k in t.entries)
             && r == ObjectValues(t)
    ensures Names(r) == OwnKeys(TableNames(rows))
    ensures Distinct(Names(r))
    ensures forall n :: n in Names(r) <==> exists i :: 0 <= i < |rows| && rows[i].tableName == n
    ensures forall i :: 0 <= i < |r| ==> r[i].columns == ColumnsOf(rows, r[i].name)
  {
    var t := Group(rows);
    GroupMatchesReference(rows);
    var ks := OwnKeys(t.keys);
    assert Names(r) == ks;
    OwnKeysDistinct(t.keys);
  }

  /** Every table named in the rows is listed, and no row is lost or counted twice. */
  lemma GetTablesKeepsEveryRow(rows: seq<Row>)
    ensures forall n :: n in Names(GetTables(rows)) <==> exists i :: 0 <= i < |rows| && rows[i].tableName == n
    ensures TotalColumns(GetTables(rows)) == |rows|
  {
    var t := Group(rows);
    GroupMatchesReference(rows);
    var ks := OwnKeys(t.keys);
    TotalColumnsOfValues(t.entries, ks, rows);
    assert GetTables(rows) == Values(t.entries, ks);
    SumColumnsPermutation(ks, t.keys, rows);
    SumColumnsCountsRows(rows);
  }

  /** With no table name that looks like an array index, tables come in order of first appearance. */
  lemma GetTablesFirstAppearanceOrder(rows: seq<Row>)
    requires forall i :: 0 <= i < |rows| ==> !IsArrayIndex(rows[i].tableName)
    ensures Names(GetTables(rows)) == TableNames(rows)
  {
    var ns := TableNames(rows);
    forall i | 0 <= i < |ns| ensures !IsArrayIndex(ns[i]) {
      assert ns[i] in ns;
    }
    OwnKeysInsertionOrder(ns);
  }

  /** Reading `.columns` of an inherited prototype member yields undefined, and `push` on it throws. */
  datatype GroupError = TypeError(tableName: string)

  /**
   The `forEach` iteration as written: `tables[name]` also finds the members
   every object inherits, which are truthy, so no table is created for such a
   name and the `push` that follows throws.
   */
  function AddRowAsWritten(t: Tables, row: Row): (r: Result<Tables, GroupError>)
    ensures r.Failure? <==> row.tableName !in t.entries && row.tableName in PrototypeMembers
    ensures r.Failure? ==> r.error == TypeError(row.tableName)
    ensures r.Success? ==> r.value == AddRow(t, row)
  {
    var n := row.tableName;
    if n !in t.entries && n in PrototypeMembers then Failure(TypeError(n))
    else Success(AddRow(t, row))
  }

  function GroupAsWritten(rows: seq<Row>): (r: Result<Tables, GroupError>)
    ensures r.Failure? ==> r.error.tableName in PrototypeMembers
    ensures r.Failure? ==> exists i :: 0 <= i < |rows| && rows[i].tableName == r.error.tableName
    decreases |rows|
  {
    if |rows| == 0 then Success(Tables([], map[]))
    else
      match GroupAsWritten(rows[..|rows| - 1])
      case Failure(e) => Failure(e)
      case Success(t) => AddRowAsWritten(t, rows[|rows| - 1])
  }

  /** `getTables` exactly as written: it throws where the corrected grouping lists a prototype-named table. */
  function GetTablesAsWritten(rows: seq<Row>): (r: Result<seq<TableInfo>, GroupError>)
    ensures !NamesPrototypeMember(rows) ==> r == Success(GetTables(rows))
    ensures NamesPrototypeMember(rows) <==> r.Failure?
  {
    GroupAsWrittenDiverges(rows);
    GroupMatchesReference(rows);
    match GroupAsWritten(rows)
    case Failure(e) => Failure(e)
    case Success(t) => Success(ObjectValues(t))
  }

  predicate NamesPrototypeMember(rows: seq<Row>) {
    exists i :: 0 <= i < |rows| && rows[i].tableName in PrototypeMembers
  }

  /** As written, the grouping agrees with the corrected one exactly when no table is named like a prototype member, and throws otherwise. */
  lemma {:induction false} GroupAsWrittenDiverges(rows: seq<Row>)
    ensures !NamesPrototypeMember(rows) ==> GroupAsWritten(rows) == Success(Group(rows))
    ensures NamesPrototypeMember(rows) ==> GroupAsWritten(rows).Failure?
    decreases |rows|
  {
    if |rows| > 0 {
      var init := rows[..|rows| - 1];
      var n := rows[|rows| - 1].tableName;
      GroupAsWrittenDiverges(init);
      assert forall i :: 0 <= i < |init| ==> init[i] == rows[i];
      if NamesPrototypeMember(init) {
        assert NamesPrototypeMember(rows);
      } else if n in PrototypeMembers {
        GroupMatchesReference(init);
        assert n !in TableNames(init);
        assert NamesPrototypeMember(rows);
      } else {
        assert !NamesPrototypeMember(rows);
      }
    }
  }

  /** A database with a table named `constructor`: the corrected grouping lists it, the code as written throws. */
  lemma ConstructorTableThrows()
    ensures var rows := [Row("constructor", "id", "integer")];
            && GetTablesAsWritten(rows) == Failure(TypeError("constructor"))
            && GetTables(rows) == [TableInfo("constructor", [Column("id", "integer")])]
  {
    var rows := [Row("constructor", "id", "integer")];
    assert rows[..0] == [];
    assert GroupAsWritten(rows) == Failure(TypeError("constructor"));
    ConstructorTableListed(rows);
  }

  /** The intended grouping lists the `constructor` table with its one column. */
  lemma ConstructorTableListed(rows: seq<Row>)
    requires rows == [Row("constructor", "id", "integer")]
    ensures GetTables(rows) == [TableInfo("constructor", [Column("id", "integer")])]
  {
    assert !IsArrayIndex(rows[0].tableName) by {
      assert !Decimal.IsDigit("constructor"[0]);
    }
    SingleTable(rows[0]);
    assert [rows[0]] == rows;
  }

  /** A single row whose table name is not index-like yields one table holding that row's column. */
  lemma SingleTable(row: Row)
    requires !IsArrayIndex(row.tableName)
    ensures GetTables([row]) == [TableInfo(row.tableName, [ColumnOf(row)])]
  {
    SingleRowReference(row);
    GetTablesFirstAppearanceOrder([row]);
    var r := GetTables([row]);
    assert r[0].columns == ColumnsOf([row], r[0].name);
  }

  /** The reference definitions on one row: one name, with that row's column. */
  lemma SingleRowReference(row: Row)
    ensures TableNames([row]) == [row.tableName]
    ensures ColumnsOf([row], row.tableName) == [ColumnOf(row)]
  {
    var rows := [row];
    assert rows[..|rows| - 1] == [] && rows[|rows| - 1] == row;
  }
}

=== FILE: schema_registry.dfy ===
/**
 The schema-registry HTTP adapter: the request URL of each of the four
 getters, the 5000 ms abort timer around `fetch`, and the rule that a
 response is parsed only when its status is ok. The network is a parameter
 `http`: for each URL, how long the exchange takes to settle and what it
 produces.
 */
module SchemaRegistry {
  import opened Wrappers
  import opened Decimal

  const TimeoutMs: nat := 5000

  /** `http://{host}:{port}`. */
  function Origin(host: string, port: nat): (o: string)
    ensures |o| == 8 + |host| + |NatToString(port)|
    ensures o[..7] == "http://"
    ensures o[7..7 + |host|] == host && o[7 + |host|] == ':'
    ensures o[8 + |host|..] == NatToString(port)
  {
    "http://" + host + ":" + NatToString(port)
  }

  /** `GET /subjects`. */
  function SubjectsUrl(host: string, port: nat): (u: string)
    ensures |u| == |Origin(host, port)| + 9
    ensures u[..|Origin(host, port)|] == Origin(host, port)
    ensures u[|Origin(host, port)|..] == "/subjects"
  {
    Origin(host, port) + "/subjects"
  }

  /** `GET /subjects/{subject}/versions`, with the subject inserted verbatim. */
  function VersionsUrl(host: string, port: nat, subject: string): (u: string)
    ensures u == SubjectsUrl(host, port) + "/" + subject + "/versions"
  {
    Origin(host, port) + "/subjects/" + subject + "/versions"
  }

  /** The `version` parameter: a number or a string. */
  datatype Version = VersionNumber(n: int) | VersionLabel(text: string)

  /** The version's text in the path; an omitted version is `latest`. */
  function VersionText(version: Option<Version>): (t: string)
    ensures version.None? ==> t == "latest"
    ensures version.Some? && version.value.VersionLabel? ==> t == version.value.text
    ensures version.Some? && version.value.VersionNumber? ==> IsIntText(t) && ParseInt(t) == version.value.n
    ensures version.Some? && version.value.VersionNumber? ==> (version.value.n < 0 <==> t[0] == '-')
  {
    match version
    case None => "latest"
    case Some(VersionNumber(n)) => ParseIntToString(n); IntToString(n)
    case Some(VersionLabel(l)) => l
  }

  /** `GET /subjects/{subject}/versions/{version}`: the versions URL with the version appended. */
  function SchemaUrl(host: string, port: nat, subject: string, version: Option<Version>): (u: string)
    ensures u == VersionsUrl(host, port, subject) + "/" + VersionText(version)
    ensures version.None? ==> u == VersionsUrl(host, port, subject) + "/latest"
  {
    Origin(host, port) + "/subjects/" + subject + "/versions/" + VersionText(version)
  }

  const IdsPath: string := "/schemas/ids/"

  /** `GET /schemas/ids/{id}`; the id's text reads back as the id. */
  function SchemaByIdUrl(host: string, port: nat, id: int): (u: string)
    ensures |u| > |Origin(host, port)| + |IdsPath|
    ensures u[..|Origin(host, port)| + |IdsPath|] == Origin(host, port) + IdsPath
    ensures var t := u[|Origin(host, port)| + |IdsPath|..];
            IsIntText(t) && ParseInt(t) == id
  {
    var u := Origin(host, port) + IdsPath + IntToString(id);
    ParseIntToString(id);
    assert u[|Origin(host, port)| + |IdsPath|..] == IntToString(id);
    u
  }

  lemma PortText()
    ensures NatToString(8081) == "8081"
  {
    assert NatToString(8) == "8";
    assert NatToString(80) == "80";
    assert NatToString(808) == "808";
  }

  lemma OriginExample()
    ensures Origin("localhost", 8081) == "http://localhost:8081"
  {
    PortText();
  }

  lemma SubjectsUrlExample()
    ensures SubjectsUrl("localhost", 8081) == "http://localhost:8081/subjects"
  {
    OriginExample();
  }

  lemma SchemaByIdUrlExample()
    ensures SchemaByIdUrl("localhost", 8081, 7) == "http://localhost:8081/schemas/ids/7"
  {
    OriginExample();
    assert IntToString(7) == "7";
  }

  /** A response body: valid JSON or not. */
  datatype Body<J> = Json(value: J) | Malformed

  datatype Response<J> = Response(status: int, body: Body<J>)

  /** What the network does with one request: it settles after `settleMs` with a response or a failure. */
  datatype Settled<J> = Responded(response: Response<J>) | NetworkFailure

  datatype Exchange<J> = Exchange(settleMs: nat, outcome: Settled<J>)

  datatype FetchError = Aborted | NetworkError

  /** The abort timer set by `setTimeout`: pending, fired (the fetch was aborted), or cleared by `clearTimeout`. */
  datatype Timer = Armed | Fired | Cleared

  /** The timer armed at time 0, as it stands at `ms` if nothing clears it first. */
  function TimerAt(ms: nat): (t: Timer)
    ensures t != Cleared
    ensures t == Fired <==> ms >= TimeoutMs
  {
    if ms >= TimeoutMs then Fired else Armed
  }

  /** `clearTimeout`: a pending timer is cancelled; a fired one is left as it is. */
  function ClearTimeout(t: Timer): (r: Timer)
    ensures r != Armed
    ensures t == Fired <==> r == Fired
  {
    if t == Armed then Cleared else t
  }

  /** The result of `fetchWithTimeout`, and the state its abort timer is left in. */
  datatype TimedFetch<J> = TimedFetch(result: Result<Response<J>, FetchError>, timer: Timer)

  /**
   `fetchWithTimeout`: the abort timer rejects an exchange that has not
   settled within 5000 ms, and `clearTimeout` runs on the success path and
   on the failure path alike, so the timer is never left pending. An
   exchange settling at exactly 5000 ms is treated as aborted: a modelling
   choice, since the source leaves that tie to the event loop.
   */
  function FetchWithTimeout<J>(x: Exchange<J>): (r: TimedFetch<J>)
    ensures r.timer != Armed
    ensures r.timer == Fired <==> r.result == Failure(Aborted)
    ensures r.timer == Cleared <==> x.settleMs < TimeoutMs
    ensures r.result.Success? <==> x.settleMs < TimeoutMs && x.outcome.Responded?
    ensures r.result.Success? ==> r.result.value == x.outcome.response
    ensures x.settleMs >= TimeoutMs ==> r.result == Failure(Aborted)
    ensures x.settleMs < TimeoutMs && x.outcome.NetworkFailure? ==> r.result == Failure(NetworkError)
  {
    var timer := TimerAt(x.settleMs);
    if timer == Fired then TimedFetch(Failure(Aborted), ClearTimeout(timer))
    else match x.outcome
      case Responded(resp) => TimedFetch(Success(resp), ClearTimeout(timer))
      case NetworkFailure => TimedFetch(Failure(NetworkError), ClearTimeout(timer))
  }

  /** `response.ok`: a 2xx status. */
  predicate IsOk(status: int) {
    200 <= status <= 299
  }

  datatype RegistryError = HttpError(status: int) | FetchFailed(reason: FetchError) | InvalidJson

  const HttpErrorPrefix: string := "HTTP error! status: "

  /** The thrown error's message; only a status error starts with the status prefix, and its status reads back. */
  function Message(e: RegistryError): (m: string)
    ensures e.HttpError? <==> |m| >= |HttpErrorPrefix| && m[..|HttpErrorPrefix|] == HttpErrorPrefix
    ensures e.HttpError? ==> var t := m[|HttpErrorPrefix|..];
              IsIntText(t) && ParseInt(t) == e.status
  {
    match e
    case HttpError(s) =>
      ParseIntToString(s);
      var m := HttpErrorPrefix + IntToString(s);
      assert m[..|HttpErrorPrefix|] == HttpErrorPrefix && m[|HttpErrorPrefix|..] == IntToString(s);
      m
    case FetchFailed(Aborted) => var m := "This operation was aborted"; assert m[0] != HttpErrorPrefix[0]; m
    case FetchFailed(NetworkError) => "fetch failed"
    case InvalidJson => var m := "Unexpected token in JSON"; assert m[0] != HttpErrorPrefix[0]; m
  }

  /** The status reads back from the message of a status error. */
  lemma MessageCarriesStatus(status: int)
    ensures var m := Message(HttpError(status));
            var t := m[|HttpErrorPrefix|..];
            m[..|HttpErrorPrefix|] == HttpErrorPrefix && IsIntText(t) && ParseInt(t) == status
  {
    ParseIntToString(status);
    var m := Message(HttpError(status));
    assert m[|HttpErrorPrefix|..] == IntToString(status);
  }

  /**
   The gate every getter applies: a fetch failure propagates, a non-ok
   status is an error carrying the status, and only an ok response has its
   body parsed.
   */
  function Gate<J>(f: Result<Response<J>, FetchError>): (r: Result<J, RegistryError>)
    ensures r.Success? <==> f.Success? && IsOk(f.value.status) && f.value.body.Json?
    ensures r.Success? ==> r.value == f.value.body.value
    ensures f.Failure? ==> r == Failure(FetchFailed(f.error))
    ensures f.Success? && !IsOk(f.value.status) ==> r == Failure(HttpError(f.value.status))
    ensures f.Success? && IsOk(f.value.status) && f.value.body.Malformed? ==> r == Failure(InvalidJson)
  {
    match f
    case Failure(e) => Failure(FetchFailed(e))
    case Success(resp) =>
      if !IsOk(resp.status) then Failure(HttpError(resp.status))
      else match resp.body
        case Json(v) => Success(v)
        case Malformed => Failure(InvalidJson)
  }

  /** A non-ok response's body is never looked at. */
  lemma GateIgnoresBodyOnError<J>(status: int, b1: Body<J>, b2: Body<J>)
    requires !IsOk(status)
    ensures Gate(Success(Response(status, b1))) == Gate(Success(Response(status, b2)))
  {
  }

  /** The exchange delivered a parseable ok response in time. */
  predicate Delivered<J>(x: Exchange<J>) {
    x.settleMs < TimeoutMs && x.outcome.Responded? && IsOk(x.outcome.response.status)
    && x.outcome.response.body.Json?
  }

  /** The exchange produced a response in time whose status is not ok. */
  predicate Rejected<J>(x: Exchange<J>) {
    x.settleMs < TimeoutMs && x.outcome.Responded? && !IsOk(x.outcome.response.status)
  }

  /** One getter's request: fetch `url` under the timer, then gate the response. */
  function Request<J>(url: string, http: string -> Exchange<J>): (r: Result<J, RegistryError>)
    ensures r.Success? <==> Delivered(http(url))
    ensures r.Success? ==> r.value == http(url).outcome.response.body.value
    ensures Rejected(http(url)) ==> r == Failure(HttpError(http(url).outcome.response.status))
    ensures http(url).settleMs >= TimeoutMs ==> r == Failure(FetchFailed(Aborted))
  {
    Gate(FetchWithTimeout(http(url)).result)
  }

  /** `getSchemaRegistrySubjects`. */
  function GetSubjects<J>(host: string, port: nat, http: string -> Exchange<J>): (r: Result<J, RegistryError>)
    ensures var x := http(SubjectsUrl(host, port));
            && (r.Success? <==> Delivered(x))
            && (r.Success? ==> r.value == x.outcome.response.body.value)
            && (Rejected(x) ==> r == Failure(HttpError(x.outcome.response.status)))
  {
    Request(SubjectsUrl(host, port), http)
  }

  /** `getSchemaVersions`. */
  function GetVersions<J>(host: string, port: nat, subject: string, http: string -> Exchange<J>)
    : (r: Result<J, RegistryError>)
    ensures var x := http(VersionsUrl(host, port, subject));
            && (r.Success? <==> Delivered(x))
            && (r.Success? ==> r.value == x.outcome.response.body.value)
            && (Rejected(x) ==> r == Failure(HttpError(x.outcome.response.status)))
  {
    Request(VersionsUrl(host, port, subject), http)
  }

  /** `getSchema`, with `version` defaulting to `latest`. */
  function GetSchema<J>(host: string, port: nat, subject: string, version: Option<Version>,
                        http: string -> Exchange<J>): (r: Result<J, RegistryError>)
    ensures var x := http(SchemaUrl(host, port, subject, version));
            && (r.Success? <==> Delivered(x))
            && (r.Success? ==> r.value == x.outcome.response.body.value)
            && (Rejected(x) ==> r == Failure(HttpError(x.outcome.response.status)))
  {
    Request(SchemaUrl(host, port, subject, version), http)
  }

  /** `getSchemaById`. */
  function GetSchemaById<J>(host: string, port: nat, id: int, http: string -> Exchange<J>)
    : (r: Result<J, RegistryError>)
    ensures var x := http(SchemaByIdUrl(host, port, id));
            && (r.Success? <==> Delivered(x))
            && (r.Success? ==> r.value == x.outcome.response.body.value)
            && (Rejected(x) ==> r == Failure(HttpError(x.outcome.response.status)))
  {
    Request(SchemaByIdUrl(host, port, id), http)
  }
}

=== FILE: text.dfy ===
/**
 Substring search and replacement on strings, with the semantics of
 JavaScript's `String.prototype.includes`, `indexOf` and `replace` when the
 pattern is a plain string.
 */
module Text {
  import opened Wrappers

  /** `sub` occurs in `s` starting at index `i`. */
  predicate OccursAt(s: string, sub: string, i: nat) {
    i + |sub| <= |s| && s[i..i + |sub|] == sub
  }

  /** `i` is the leftmost index at which `sub` occurs in `s`. */
  predicate IsFirstOccurrence(s: string, sub: string, i: nat) {
    OccursAt(s, sub, i) && forall j: nat :: j < i ==> !OccursAt(s, sub, j)
  }

  /** The first index at or after `from` at which `sub` occurs in `s`. */
  function IndexFrom(s: string, sub: string, from: nat): (r: Option<nat>)
    ensures r.Some? ==> from <= r.value && OccursAt(s, sub, r.value)
    ensures r.Some? ==> forall j: nat :: from <= j < r.value ==> !OccursAt(s, sub, j)
    ensures r.None? ==> forall j: nat :: from <= j ==> !OccursAt(s, sub, j)
    decreases |s| - from
  {
    if from + |sub| > |s| then None
    else if s[from..from + |sub|] == sub then Some(from)
    else IndexFrom(s, sub, from + 1)
  }

  /** JavaScript's `s.indexOf(sub)`, with `None` for -1. */
  function IndexOf(s: string, sub: string): (r: Option<nat>)
    ensures r.Some? <==> exists i: nat :: OccursAt(s, sub, i)
    ensures r.Some? ==> IsFirstOccurrence(s, sub, r.value)
  {
    IndexFrom(s, sub, 0)
  }

  /** JavaScript's `s.includes(sub)`. */
  function Contains(s: string, sub: string): (b: bool)
    ensures b <==> exists i: nat :: OccursAt(s, sub, i)
  {
    IndexOf(s, sub).Some?
  }

  /** A pattern with two adjacent characters that never appear side by side in `s` does not occur in `s`. */
  lemma AbsentPair(s: string, sub: string, k: nat)
    requires k + 1 < |sub|
    requires forall i :: 0 <= i < |s| - 1 ==> !(s[i] == sub[k] && s[i + 1] == sub[k + 1])
    ensures !Contains(s, sub)
  {
    forall i: nat ensures !OccursAt(s, sub, i) {
      if i + |sub| <= |s| {
        assert s[i..i + |sub|][k] == s[i + k];
        assert s[i..i + |sub|][k + 1] == s[i + k + 1];
      }
    }
  }

  lemma ContainsWitness(s: string, sub: string, i: nat)
    requires OccursAt(s, sub, i)
    ensures Contains(s, sub)
  {
  }

  /**
   JavaScript's `s.replace(pat, rep)` with a string pattern: only the leftmost
   occurrence of `pat` is replaced, and `s` is returned unchanged when `pat`
   does not occur. `rep` is inserted literally (the replacements used in the
   model contain no `$` patterns).
   */
  function ReplaceFirst(s: string, pat: string, rep: string): (r: string)
    ensures (forall i: nat :: !OccursAt(s, pat, i)) ==> r == s
    ensures forall i: nat :: IsFirstOccurrence(s, pat, i) ==>
              r == s[..i] + rep + s[i + |pat|..]
  {
    match IndexOf(s, pat)
    case None => s
    case Some(i) => s[..i] + rep + s[i + |pat|..]
  }

  /** With a replacement as long as the pattern, occurrences after the first stay where they were. */
  lemma ReplaceFirstKeepsLater(s: string, pat: string, rep: string, i: nat, j: nat)
    requires |rep| == |pat|
    requires IsFirstOccurrence(s, pat, i)
    requires OccursAt(s, pat, j) && j >= i + |pat|
    ensures OccursAt(ReplaceFirst(s, pat, rep), pat, j)
  {
    SpliceKeepsLater(s, pat, rep, i, j);
  }

  /** Splicing a same-length text in at `i` leaves an occurrence after the splice in place. */
  lemma SpliceKeepsLater(s: string, pat: string, rep: string, i: nat, j: nat)
    requires |rep| == |pat| && i + |pat| <= j
    requires OccursAt(s, pat, j)
    ensures OccursAt(s[..i] + rep + s[i + |pat|..], pat, j)
  {
    var k, t := i + |pat|, s[i + |pat|..];
    var r := s[..i] + rep + t;
    assert r[k..] == t;
    assert r[j..j + |pat|] == t[j - k..j - k + |pat|];
    assert s[j..j + |pat|] == t[j - k..j - k + |pat|];
  }
}

=== FILE: wrappers.dfy ===
/** Failure-compatible wrappers shared by every module of the model. */
module Wrappers {

  /** A value that may be absent: JavaScript's `undefined`/`null` versus a present value. */
  datatype Option<+T> = None | Some(value: T)

  /** The outcome of an operation that either returns a value or throws an error. */
  datatype Result<+R, +E> = Success(value: R) | Failure(error: E)
}
